=== FILE: README.md ===
# Skill Swap — a Dafny model of its core

Skill Swap is a small web platform on which users list the skills they offer and want, send
each other swap requests, track a swap's progress to completion and rate each other afterwards.
An admin moderates skills and users, reads statistics, downloads reports and broadcasts
messages; a separate mail service sends feature and downtime notices.

This project models, in Dafny:

- **the Express server's state and routes** (`server.dfy`, `swap_records.dfy`). A `Store` class
  holds the tables (users, skills, offered and wanted skills, swap requests, ratings, admin
  messages) as maps that its methods reassign. It covers:
  - the swap lifecycle: create, status change, delete, and the two-party progress and
    completion protocol;
  - ratings, the skill directory, and the admin routes.

  The progress route is modelled twice. `SwapRecords.PlanProgress` builds the SQL SET clause by
  successive pushes, exactly as the handler does. `SwapRecords.ProgressOutcome` is the
  column-by-column result, and the lemmas state the protocol's properties about it.
- **the admin reports** (`reports.dfy`): removing the id columns, the CSV serialisation, and the
  download file name.
- **the skill de-duplication migration** (`dedup.dfy`): keep the smallest id of each duplicated
  name, repoint the offered and wanted rows to it, and delete the other ids.
- **the client-side decision helpers** of four pages:
  - swap tracking (`swap_tracking.dfy`);
  - swap requests (`swaps_page.dfy`);
  - my skills (`skills_page.dfy`);
  - the user directory (`user_list.dfy`);
  - their shared pagination (`pagination.dfy`).
- **the mail controller** (`mail.dfy`): request validation, the case-insensitive message type,
  and the single send.

Shared string and sequence helpers live in `common.dfy`: ASCII lower-casing, `join`/`split`,
substring, and filter.

The authenticated user (id and admin flag, decoded from the JWT) is a parameter of every route.
So are the time (`CURRENT_TIMESTAMP`), `JSON.stringify` and `encodeURIComponent` (as functions),
and the column defaults of the schema script. Each request runs as one atomic step.

The progress handler announces a two-party gate ("Check if both users completed the swap",
server/index.js:427); the code goes beyond it in two ways:

- A progress request that re-sends `completed` after both flags are set re-stamps `completed_at`
  (`SwapRecords.GateRestampsCompletedAt`).
- A caller-supplied `tracking_status = 'completed'` completes a swap without the other party's
  flag (`SwapRecords.SuppliedTrackingCompletesUnilaterally`). The tracking page's progress form
  always sends a tracking status, so choosing "completed" there does exactly this
  (`SwapTracking.FormAlwaysSendsTracking`).

## Model

| member | source | states |
|---|---|---|
| SwapRecords.PlanProgress | server/index.js:401-450 | The SET clause is empty exactly when the body names no column. Otherwise running it (rightmost assignment wins, then `updated_at`) gives `ProgressOutcome`. When the gate fires, the clause ends with `tracking_status='completed'` and `completed_at`, and `completed_at` is stamped only then. |
| SwapRecords.StepsGiveOutcome | server/index.js:404-442 | Composing the handler's four conditional pushes gives the declarative `ProgressOutcome`. |
| SwapRecords.ApplyAllSnoc | server/index.js:447-449 | Applying a SET clause with one more assignment is the shorter clause followed by that assignment. |
| SwapRecords.ProgressTouchesOnlyOwnColumns | server/index.js:409-425 | A participant's request never changes the other party's notes or flag, the participants, the skills, the message or the status. |
| SwapRecords.GateIffBothCompleted | server/index.js:427-442 | On a swap not already completed, and without a supplied tracking status, a completing request leaves the swap completed exactly when both flags are set. |
| SwapRecords.GateOverridesSuppliedTracking | server/index.js:439-442 | When the other party had completed, the row becomes `completed` and is stamped, whatever tracking status was sent. |
| SwapRecords.TrackingChangesOnlyWhenSupplied | server/index.js:404-407 | Without the gate, the tracking status changes only to a supplied non-empty value, and `completed_at` is kept. |
| SwapRecords.CompletionOrderIndependent | server/index.js:418-442 | Both orders of the two confirmations give the same row, completed and stamped at the second one. |
| SwapRecords.GateRestampsCompletedAt | server/index.js:439-442 | Re-sending `completed` after both flags are set overwrites `completed_at`. |
| SwapRecords.SuppliedTrackingCompletesUnilaterally | server/index.js:404-407 | Sending `tracking_status='completed'` completes the swap with neither flag set, leaving `completed_at` as it was. |
| Server.TrackingAfterStatus | server/index.js:336-338 | The tracking status written with a status change is `in_progress` exactly for `accepted`, else `pending`. |
| Server.NewSwapRow | server/index.js:314-331 | A new swap has both users as participants, the skills and message sent, no completion time, and its requester may withdraw it exactly when the default status is `pending`. |
| Server.WithStatus | server/index.js:334-350 | A status change writes the status, a tracking status that is `in_progress` exactly for `accepted`, and `updated_at`, and leaves every other column as it was. |
| Server.Store.constructor | server/index.js:41-47 | A freshly initialised database: the given users and otherwise empty tables. |
| Server.Store.CreateSwap | server/index.js:314-331 | Inserts exactly one swap under a fresh id, requested by the caller, with the schema defaults; nothing is validated. |
| Server.Store.SetSwapStatus | server/index.js:334-350 | Changes one row exactly when the swap exists and the caller takes part in it; it then sets the status and the matching tracking status. |
| Server.Store.DeleteSwap | server/index.js:353-362 | Removes the swap exactly when it is pending and the caller requested it; otherwise nothing changes. |
| Server.Store.UpdateProgress | server/index.js:387-473 | 404 for a missing swap, 403 for a non-participant, 400 for a body naming no column; otherwise the row becomes `ProgressOutcome` and one change is reported. |
| Server.Store.SubmitRating | server/index.js:476-486 | Inserts exactly the rating sent, with the caller as rater and the rated user as sent, possibly absent; nothing else is checked. |
| Server.Store.AddSkill | server/index.js:267-277 | Inserts one skill, always unapproved. |
| Server.Store.ApprovedSkills | server/index.js:280-285 | Exactly the skills whose `is_approved` is 1, unchanged. |
| Server.Store.OfferSkill | server/index.js:288-298 | Inserts one offered row owned by the caller. |
| Server.Store.WantSkill | server/index.js:301-311 | Inserts one wanted row owned by the caller, without proficiency. |
| Server.Store.RemoveOffered | server/index.js:553-562 | Deletes the row exactly when the caller owns it. |
| Server.Store.RemoveWanted | server/index.js:564-573 | Deletes the row exactly when the caller owns it. |
| Server.Store.AdminListUsers | server/index.js:578-611 | 403 for a non-admin. Otherwise every user, each with the skills of their offered rows and of their wanted rows (`SkillsOf`). |
| Server.Store.AdminUpdateUser | server/index.js:614-647 | 403 for a non-admin; 400 when neither flag is sent; otherwise the flags sent are stored and one change is reported exactly when the user exists. |
| Server.Store.PendingSkills | server/index.js:650-661 | 403 for a non-admin, otherwise exactly the skills whose `is_approved` is 0, with their stored values. |
| Server.Store.AdminSetApproval | server/index.js:664-675 | 403 for a non-admin; otherwise stores the value sent and reports one change exactly when the skill exists. |
| Server.Store.AdminStats | server/index.js:678-746 | 403 for a non-admin. Otherwise the six counts: users, distinct offering users, approved skills, pending skills, swaps, and accepted swaps. Approved plus pending is at most the skill count, accepted is at most all swaps, and the offering users are at most the offered rows. |
| Server.Store.PostAdminMessage | server/index.js:749-775 | 403 for a non-admin, otherwise exactly one new message from the caller. |
| Server.Store.BroadcastRecipients | server/index.js:757-760 | The broadcast goes to exactly the e-mail addresses of users who are not banned. |
| Server.OwnersBound | server/index.js:692-699 | There are no more distinct offering users than offered rows. |
| Server.SkillsOf | server/index.js:588-606 | A user's listed skills are exactly one entry per row of that user whose skill exists, with the row id, the skill id and the skill's name. |
| Server.ReceivedRatings | server/index.js:249-264 | Exactly the ratings whose rated user is the given user and whose rater exists; a rating without a rated user is in no list. |
| Reports.Lookup | server/index.js:783 | A column is found exactly when the row has it. |
| Reports.WithoutIds | server/index.js:835-841 | The cleaned row keeps exactly the columns that are not `id` and do not end in `_id`, in order. |
| Reports.WithoutIdsLookup | server/index.js:835-841 | Looking a column up after cleaning gives nothing for an id column, and the original value otherwise. |
| Reports.WithoutIdsSnoc | server/index.js:837-839 | Cleaning a row with one more column cleans that column on its own. |
| Reports.CleanRow | server/index.js:836-840 | The loop over the keys leaves exactly `WithoutIds` of the row. |
| Reports.CleanRows | server/index.js:835-841 | Every row is cleaned, and the count and order are kept. |
| Reports.Cell | server/index.js:783 | A null or missing value is written as the empty string; other values as they are. |
| Reports.Cells | server/index.js:783 | One encoded cell per header, in header order. |
| Reports.CsvLines | server/index.js:780-784 | One header line (the first row's keys) and then one line per row. |
| Reports.ToCsv | server/index.js:778-786 | The CSV is empty exactly when there are no rows; otherwise it is the lines joined by newlines. |
| Reports.CsvLinesRoundTrip | server/index.js:778-786 | When neither the headers nor the encoder emit a newline, splitting the CSV on newlines gives back its lines: the header plus one per row. |
| Reports.JoinAvoids | server/index.js:783 | Joining parts that lack a character with a separator that lacks it gives a text without it. |
| Reports.ParseReportType | server/index.js:795-831 | `users`, `feedback` and `swaps` select their report, each exactly for its name; anything else is invalid. |
| Reports.UserFilter | server/index.js:794-802 | The user filter applies exactly when `user_id` is present and non-empty. |
| Reports.ReportFileName | server/index.js:845-847 | The name is the type, then `_user_<id>` when filtered, then `_report.csv`. The length tells which case applies. |
| Reports.Report | server/index.js:789-853 | 403 for a non-admin; 400 "Invalid report type"; otherwise a CSV download exactly when requested (cleaned rows, the file name) or the cleaned rows as JSON. |
| SkillDedup.IdsNamed | server/migrate_deduplicate_skills.js:32-35 | Exactly the ids of the skills with that name. |
| SkillDedup.MinId | server/migrate_deduplicate_skills.js:32 | `MIN(id)`: a member of the group no larger than any other. |
| SkillDedup.MinExists | server/migrate_deduplicate_skills.js:32 | Every non-empty group of ids has a least element. |
| SkillDedup.Canonical | server/migrate_deduplicate_skills.js:41-44 | The kept id has the same name and is no larger than the given id. |
| SkillDedup.DuplicatedNames | server/migrate_deduplicate_skills.js:32-35 | A name is selected exactly when more than one id carries it. |
| SkillDedup.Deduplicated | server/migrate_deduplicate_skills.js:76-88 | Exactly the skills that are the canonical id of their name remain, unchanged. |
| SkillDedup.RepointRows | server/migrate_deduplicate_skills.js:48-74 | Every offered or wanted row keeps its key and now names its skill's canonical id. |
| SkillDedup.RepointTo | server/migrate_deduplicate_skills.js:51-54 | One group's UPDATE: rows naming a duplicate id now name the canonical id, and other rows are unchanged. |
| SkillDedup.StepSkills | server/migrate_deduplicate_skills.js:76-88 | Handling one more name deletes exactly that name's duplicate ids. |
| SkillDedup.StepRows | server/migrate_deduplicate_skills.js:48-74 | Handling one more name repoints exactly the rows naming that name's duplicates. |
| SkillDedup.AllDone | server/migrate_deduplicate_skills.js:40-95 | After every duplicated name is handled, the skills and rows are the declarative result. |
| SkillDedup.NothingDone | server/migrate_deduplicate_skills.js:40 | Before the loop, no row is changed. |
| SkillDedup.SingleName | server/migrate_deduplicate_skills.js:32-35 | A skill whose name is not duplicated is the only one with that name and is its own canonical id. |
| SkillDedup.MergeGroup | server/migrate_deduplicate_skills.js:48-88 | One group: both row tables are repointed to the canonical id and the duplicate ids are deleted. |
| SkillDedup.MergeGroups | server/migrate_deduplicate_skills.js:40-95 | The loop over the groups gives the partial result for all the names handled. |
| SkillDedup.DeduplicateSkills | server/migrate_deduplicate_skills.js:25-104 | "No duplicates found." exactly when no name repeats, else "Deduplication complete.". The skills become `Deduplicated` and the offered and wanted rows become `RepointRows`. |
| SkillDedup.NoDuplicatesNoChange | server/migrate_deduplicate_skills.js:38 | Without duplicates, nothing changes. |
| SkillDedup.NamesUnique | server/migrate_deduplicate_skills.js:25-104 | After the migration no two skills share a name. |
| SkillDedup.CanonicalSurvives | server/migrate_deduplicate_skills.js:41-44 | Every id is repointed to a surviving skill of the same name, the smallest id with that name. |
| SkillDedup.ReferencesKept | server/migrate_deduplicate_skills.js:48-88 | A row that named an existing skill still names an existing skill with the same name. |
| SkillDedup.Idempotent | server/migrate_deduplicate_skills.js:25-104 | Running the migration again finds no duplicates and changes nothing. |
| SkillDedup.SwapLeftDangling | server/index.js:372-375 | As written: a swap naming a deleted duplicate drops out of the swap list. |
| SkillDedup.RepointSwaps | server/migrate_deduplicate_skills.js:48-74 | Corrected: both skill ids of every swap are repointed, and nothing else changes. |
| SkillDedup.DeduplicateSkillsAndSwaps | server/migrate_deduplicate_skills.js:25-104 | Corrected migration: as `DeduplicateSkills`, and the swaps are repointed as well. |
| SkillDedup.SwapsStayListed | server/index.js:365-384 | Corrected: every swap that was listed before the migration is still listed after it. |
| Pagination.TotalPages | src/components/swaps/Swaps.js:129 | `Math.ceil(n / per)`: the least number of pages that holds every item. |
| Pagination.Page | src/components/users/UserList.js:61-65 | A page shows at most `per` of the items; from page 1 on, the items from index `(p - 1) * per` on, in order. |
| Pagination.JsSlice | src/components/swaps/Swaps.js:130-133 | `Array.prototype.slice`: as many items as the clamped end lies past the clamped start (none otherwise), and item `i` is the item at the clamped start plus `i`. |
| Pagination.PageContents | src/components/swaps/Swaps.js:129-133 | A page holds at most `per` items, the right ones; it is empty past the last page and non-empty before it. |
| Pagination.ItemPage | src/components/swaps/Swaps.js:129-133 | Every item is on page `i / per + 1` at position `i % per`, within the page count. |
| Pagination.PagesPrefix | src/components/swaps/Swaps.js:129-133 | The first `k` pages together are the first `k * per` items. |
| Pagination.PagesCoverAll | src/components/swaps/Swaps.js:129-133 | All pages together are exactly the items, in order. |
| Pagination.Prev | src/components/swaps/Swaps.js:221 | The "<" button never goes below page 1 and otherwise goes back one page. |
| Pagination.Next | src/components/swaps/Swaps.js:239 | The ">" button never goes past the last page and otherwise goes forward one page. |
| Pagination.ButtonsStayInRange | src/components/swaps/Swaps.js:217-242 | While the controls show, "<" and ">" keep the page within the pages and stay put at the ends, and there is one numbered button per page, in increasing order. |
| Pagination.ControlsIffOverflow | src/components/users/UserList.js:275 | The pagination controls appear exactly when there are more items than one page holds. |
| SwapRecords.Counterpart | src/components/swaps/SwapTracking.js:59-62 | The other party is the recipient when I requested and the requester otherwise: always a participant, never me when the participants differ. Both swap pages use it. |
| SwapTracking.RatedUser | src/components/swaps/SwapTracking.js:59-62 | The rated user is a participant, and never me when the participants differ. |
| SwapTracking.OtherUser | src/components/swaps/SwapTracking.js:130-142 | The card shows one of the two participants' profiles, and between two people the one the rating is about. |
| SwapTracking.ShownUserIsRatedUser | src/components/swaps/SwapTracking.js:130-142 | The card shows exactly the user the rating is about. |
| SwapTracking.MySkill | src/components/swaps/SwapTracking.js:144-149 | I offer exactly when I requested the swap; an offered skill is the requester's, a received one the recipient's. |
| SwapTracking.OtherSkill | src/components/swaps/SwapTracking.js:150-154 | The counterpart offers exactly when I did not request the swap, with the same skill rule. |
| SwapTracking.SkillSidesOpposite | src/components/swaps/SwapTracking.js:144-154 | The two skill lines have opposite directions and together show both skills; "offering" always names the requester's skill. |
| SwapTracking.CanRate | src/components/swaps/SwapTracking.js:156-162 | Only an accepted swap I have not yet rated can be rated, and then "Update Progress" is not offered. |
| SwapTracking.ShowUpdateProgress | src/components/swaps/SwapTracking.js:254-255 | "Update Progress" shows only on accepted swaps, and on each of them until its tracking status is `completed`. |
| SwapTracking.ActionsExclusive | src/components/swaps/SwapTracking.js:156-162 | Rate and Update Progress never show together; an accepted, unrated swap shows one of them; other swaps show neither. |
| SwapTracking.OpenProgressForm | src/components/swaps/SwapTracking.js:80-94 | The form opens with the stored tracking status (`in_progress` when empty) and my own notes and flag. |
| SwapTracking.FormBody | src/components/swaps/SwapTracking.js:40-53 | The form's body always names a column, supplies a tracking status exactly when the form's is non-empty, and always sends my notes and flag. |
| SwapTracking.FormAlwaysSendsTracking | src/components/swaps/SwapTracking.js:40-53 | The form never sends a body naming no column. Choosing "completed" in it completes the swap without the other party's flag. |
| SwapTracking.StatusBadge | src/components/swaps/SwapTracking.js:101-113 | The four known statuses get their badge; any other status gets `badge-pending` with its raw text. |
| SwapTracking.TrackingBadge | src/components/swaps/SwapTracking.js:115-128 | The five known values get their badge; any other value gets `badge-pending` with its raw text. |
| SwapsPage.OtherUserId | src/components/swaps/Swaps.js:41-44 | The counterpart is a participant, and never me when the participants differ. |
| SwapsPage.RatingsForSwap | src/components/swaps/Swaps.js:66-69 | Exactly the received ratings of this swap. |
| SwapsPage.AnyRatedBy | src/components/swaps/Swaps.js:27-30 | True exactly when some rating is by me. |
| SwapsPage.HasRated | src/components/swaps/Swaps.js:27-30 | True exactly when the swap carries a ratings list holding a rating by me. |
| SwapsPage.HasRatedIffRatedCounterpart | src/components/swaps/Swaps.js:27-30 | `hasRated` holds exactly when I rated the counterpart for this swap. |
| SwapsPage.CanRate | src/components/swaps/Swaps.js:142-144 | Only an accepted swap I have not rated; between two participants only the requester rates, and the rating is about the recipient. |
| SwapsPage.ShowAcceptReject | src/components/swaps/Swaps.js:186 | Only the recipient of a pending swap is offered Accept and Reject, and such a swap cannot be rated. |
| SwapsPage.ActionsOnCard | src/components/swaps/Swaps.js:142-144 | A card never offers Rate together with Accept/Reject. A recipient never gets Rate, and a requester never gets Accept/Reject. |
| SwapsPage.SkillName | src/components/swaps/Swaps.js:58-61 | The name of the first skill listed with the id; "" when no skill has it. |
| SwapsPage.YourSkill | src/components/swaps/Swaps.js:172-173 | For a participant of a swap between two people, the name of the skill of their own role. |
| SwapsPage.TheirSkill | src/components/swaps/Swaps.js:176-177 | Together with "Your Skill" it names both skills of the swap. |
| SwapsPage.PagesAgreeOnMySkill | src/components/swaps/Swaps.js:173-177 | This page and the tracking page name the same skill as mine and as theirs. |
| SwapsPage.PostedRatedUser | src/components/swaps/Swaps.js:114 | As written: the rated user is posted exactly when the counterpart's profile is public and not banned. |
| SwapsPage.PrivateCounterpartUnrated | src/components/swaps/Swaps.js:45-51 | As written: rating a private counterpart posts no rated user. |
| SwapsPage.RatedUser | src/components/swaps/Swaps.js:41-44 | Corrected: the recipient when I requested the swap and the requester otherwise, whatever the counterpart's visibility. |
| SwapsPage.RatedUserIsCounterpart | src/components/swaps/Swaps.js:108-119 | Corrected: it agrees with the as-written choice whenever that posts a user, agrees with the tracking page, and is never me. |
| SwapsPage.HiddenCounterpartRatingUnlisted | src/components/swaps/Swaps.js:108-119 | As written: a rating posted for a hidden counterpart is stored without a rated user and is in nobody's received ratings, the counterpart's included. |
| SwapsPage.CorrectedRatingListed | server/index.js:249-264 | Corrected: the stored rating is among the counterpart's received ratings. |
| SwapsPage.SwapsOnPage | src/components/swaps/Swaps.js:130-133 | A page shows at most five of the listed swaps. |
| SwapsPage.SwapsPagination | src/components/swaps/Swaps.js:129-133 | At most five swaps per page; pages past the last are empty; the pages cover every swap once, in order. |
| SkillsPage.Without | src/components/skills/Skills.js:156 | Exactly the other ids remain. |
| SkillsPage.WithoutAbsent | src/components/skills/Skills.js:156 | Removing an id that is not selected changes nothing. |
| SkillsPage.WithoutAppended | src/components/skills/Skills.js:155-157 | Removing the only copy of an id appended last restores the list. |
| SkillsPage.Toggle | src/components/skills/Skills.js:153-167 | Afterwards the id is selected exactly when it was not; every other id is as before. |
| SkillsPage.ToggleTwice | src/components/skills/Skills.js:153-167 | Toggling an unselected id twice restores the selection. |
| SkillsPage.ToggleKeepsDistinct | src/components/skills/Skills.js:153-167 | A selection without repeats keeps none after a toggle. |
| SkillsPage.WithoutKeepsDistinct | src/components/skills/Skills.js:156 | Removing an id keeps a selection without repeats. |
| SkillsPage.CurrentIds | src/components/skills/Skills.js:171-172 | The ids on the profile's list, none when the profile has no list. |
| SkillsPage.Matches | src/components/skills/Skills.js:179-183 | A skill matches exactly when the lower-cased term occurs, at some position, in the lower-cased name or the lower-cased category; so the empty term matches every skill and a term longer than both fields matches none. |
| SkillsPage.Available | src/components/skills/Skills.js:170-199 | Exactly the approved skills not on the profile that match the term, unless the term is blank (only `trim()` white space). |
| SkillsPage.MatchIgnoresCase | src/components/skills/Skills.js:179-183 | Matching ignores the case of the term. |
| SkillsPage.BlankKeepsAll | src/components/skills/Skills.js:177 | A blank term does not narrow the list. |
| SkillsPage.Find | src/components/skills/Skills.js:204 | The skill found has the id and is the first listed skill with it (no earlier one has the id); none is found exactly when no listed skill has it. |
| SkillsPage.SelectedText | src/components/skills/Skills.js:201-217 | The placeholder for no selection; the name (or the placeholder) for one; otherwise a decimal number followed by " skills selected", and reading that number back gives the count. |
| SkillsPage.AddSelected | src/components/skills/Skills.js:61-106 | Nothing for an empty selection. Otherwise one request per selected id, in order: empty description, "intermediate" for offered skills. The selection is cleared only when every request succeeds. |
| SkillsPage.SubmitNewSkill | src/components/skills/Skills.js:134-151 | A request is sent exactly when the name and the category are both filled in, and it carries the form as is. |
| UserList.FilteredUsers | src/components/users/UserList.js:56-58 | Exactly the listed users other than me and other than admins, each as many times as it is listed. |
| UserList.FilteredUsersKeepOrder | src/components/users/UserList.js:56-58 | Filtering a list split in two filters each part and keeps them in that order, so the listing order is kept. |
| UserList.UsersOnPage | src/components/users/UserList.js:61-65 | A page shows at most six listed users, none of them me or an admin. |
| UserList.UsersPagination | src/components/users/UserList.js:60-65 | At most six users per page, none of them me or an admin; the pages cover every filtered user, in order. |
| UserList.QueryParts | src/components/users/UserList.js:34-37 | At most two parts; none exactly when there is no skill and the availability is "Any". |
| UserList.QueryString | src/components/users/UserList.js:32-38 | The query is empty exactly when there is no skill and availability is "Any"; otherwise it is "?" and the parts joined by "&". |
| UserList.QueryRoundTrip | src/components/users/UserList.js:34-38 | Splitting the query on "&" gives back its parts, skill first. |
| MailSystem.ParseType | MailAPI/Controllers/MailSystemController.cs:26-45 | Each of the three message types is chosen exactly for its lower-cased name; any other type is invalid. |
| MailSystem.ParseTypeIgnoresCase | MailAPI/Controllers/MailSystemController.cs:26 | Types that differ only in letter case choose the same message. |
| MailSystem.KnownSpellings | MailAPI/Controllers/MailSystemController.cs:26-41 | "NewFeature", "UpdateFeature", "Downtime" and "DOWNTIME" are recognised. |
| MailSystem.SubjectsDistinct | MailAPI/Controllers/MailSystemController.cs:29-39 | The three subjects differ. |
| MailSystem.Head | MailAPI/Controllers/MailSystemController.cs:52-114 | The document head starts with the doctype. |
| MailSystem.Closing | MailAPI/Controllers/MailSystemController.cs:119-131 | The closing text ends with the closing `html` tag. |
| MailSystem.Assemble | MailAPI/Controllers/MailSystemController.cs:50-132 | A template built from its texts is a whole HTML document around the title and description slots. |
| MailSystem.TemplateOf | MailAPI/Controllers/MailSystemController.cs:50-300 | Each of the three templates is a whole HTML document, from the doctype to the closing tag. |
| Common.NatToString | src/components/skills/Skills.js:207 | The count is written as decimal digits without a leading zero, and reading them back gives the count. |
| Common.ToLower | src/components/skills/Skills.js:181-182 | `toLowerCase()`: the same length, each ASCII capital replaced by its small letter and every other character kept. |
| Common.Contains | src/components/skills/Skills.js:181-182 | `includes`: true exactly when the term occurs in the text starting at some position (`OccursAt`); so the empty string is found in every string, and no string longer than the text is found in it. |
| Common.Filter | src/components/users/UserList.js:56-58 | `filter`: an element is kept exactly when it passes, as many times as it occurs, and the others not at all. |
| Common.FilterConcat | src/components/users/UserList.js:56-58 | `filter` distributes over concatenation, so it keeps the order of the elements it keeps. |
| MailSystem.FillSlices | MailAPI/Controllers/MailSystemController.cs:118-119 | A filled template is its prefix, the title, its middle, the description and its suffix. |
| MailSystem.FillInjective | MailAPI/Controllers/MailSystemController.cs:202-203 | Given the title's length, equal bodies from one template have equal titles and descriptions. |
| MailSystem.FillFrames | MailAPI/Controllers/MailSystemController.cs:286-287 | A body starts with its fixed text and the title, and ends with the description and the closing text. |
| MailSystem.Render | MailAPI/Controllers/MailSystemController.cs:50-300 | Every mail body is its type's opening text and the title, then the description and its closing text; a null title or description counts as "". |
| MailSystem.MailSystemController.constructor | MailAPI/Controllers/MailSystemController.cs:12-15 | No mail has been sent. |
| MailSystem.MailSystemController.Send | MailAPI/Controllers/MailSystemController.cs:17-49 | 400 "Email and Type are required." when either is null or empty, and 400 "Invalid message type." for an unknown type, both sending nothing. Otherwise exactly one mail (address, subject, rendered body) and 200 "Email sent successfully.". |

## Left out

- Authentication: registration, login, password hashing and JWT signing and verification are not modelled. The decoded user id and admin flag are parameters.
- Photo upload (multer), the profile routes, and the public user listing are not modelled. Their filtering on `is_public` and `is_banned` appears only inside `SwapsPage.PostedRatedUser`. Of the rating listing, only which rows it selects is modelled (`Server.ReceivedRatings`), not the rater columns it adds.
- The mail proxy route and the broadcast's HTTP calls are not modelled. `Server.Store.BroadcastRecipients` names the addresses only.
- The SendGrid and SMTP sender behind `IEmailSender` is not modelled. `MailSystem.MailSystemController` records each call in `sent`.
- The inline CSS style sheet of the three mail templates is not modelled. The rest of the fixed text is.
- Database errors (the 500 and 400 replies carrying `err.message`) are not modelled, nor is the gate's failed re-read of the flags (`!err && currentSwap` false), nor the empty skill lists the admin user listing substitutes when one of its per-user queries fails.
- SkillDedup.DeduplicateSkills: models only the run in which every statement succeeds. When an UPDATE or DELETE is rejected, the migration throws inside the asynchronous query callback. Its promise then never settles, the rejection goes unhandled, and the groups merged before stay merged, since there is no transaction. That partial state is not modelled.
- SkillDedup.MergeGroups: the same. The loop is modelled without a statement failing part-way through a group or between groups.
- The schema script, with its column defaults and constraints, is not part of this model. The defaults of `swap_requests` are a parameter (`Server.SwapDefaults`).
- Absent JSON fields: the handlers bind a missing body field as SQL NULL, while the model types these fields as strings. This concerns `status` in `Server.Store.SetSwapStatus`, `message` in `Server.Store.CreateSwap`, and `name`, `category` and `description` in `Server.Store.AddSkill`. A request that leaves them out is not modelled.
- SQL `ORDER BY`, `AVG` and `LIKE` are not modelled. Maps and sets stand for result sets whose order the model does not fix.
- The SELECT statements of the three reports are not modelled. `Reports.Report` receives their rows from a `query` parameter.
- The concurrency of `Promise.all`, React state batching and rendering are not modelled.
- Object keys such as `constructor` found on the prototype of a badge lookup table are not modelled.
- Case folding of non-ASCII letters in `toLowerCase()` and `ToLower()` is not modelled.
- The text round trip of `GROUP_CONCAT(id)` and `split(",").map(Number)` is not modelled. `SkillDedup.IdsNamed` gives the group's ids directly.
- `hasRated` on the tracking page is read from the swap, where the server never sets it. `SwapTracking.CanRate` keeps the check as written.
- A search on the user directory does not reset the current page. A page past the last is then empty, as `Pagination.PageContents` states.
- SkillDedup.SwapLeftDangling: shows one dangling swap, not every one. The general statement about the corrected migration is `SkillDedup.SwapsStayListed`.
- SkillDedup.RepointSwaps: the corrected migration also repoints `swap_requests`, which the code does not touch.

## Findings

| source | as written | input that shows it | evidently intended | confidence | as-written member | corrected member |
|---|---|---|---|---|---|---|
| server/migrate_deduplicate_skills.js:48-88 | Only `user_skills_offered` and `user_skills_wanted` are repointed before the duplicate skills are deleted. `swap_requests.requester_skill_id` and `recipient_skill_id` keep the deleted ids, and the inner joins of `GET /api/swaps` (server/index.js:374-375) then drop those swaps. | Skills 1 and 2 both named "Guitar"; a swap whose requester skill is 2. | The swaps' skill ids are repointed to the canonical id too, so every listed swap stays listed. | medium, not executed (depends on the schema's foreign keys, which SQLite leaves off unless enabled) | SkillDedup.SwapLeftDangling | SkillDedup.DeduplicateSkillsAndSwaps |
| src/components/swaps/Swaps.js:114 | The rating posts `rateSwap.otherUser.id`, taken from `GET /api/users/:id`. For a private or banned counterpart that request fails with 404 (server/index.js:205-209), the fallback profile has no id, and `POST /api/ratings` stores the rating without a rated user (`Server.Store.SubmitRating`), so it is in nobody's received ratings (`SwapsPage.HiddenCounterpartRatingUnlisted`). | An accepted swap requested by user 10 whose recipient 20 has a private profile. | The rated user is `otherUserId` (Swaps.js:41-44), as on the tracking page. | high, not executed (the schema is not part of this model: with a nullable `rated_user_id` the row is stored without a rated user, with NOT NULL the insert fails; either way the counterpart never receives the rating) | SwapsPage.PostedRatedUser | SwapsPage.RatedUser |

=== FILE: common.dfy ===
/** Values and string helpers shared by the server, the client helpers and the mail controller. */
module Common {

  /** A value that may be absent: JavaScript `undefined`/`null`, SQL NULL or a C# null reference. */
  datatype Option<+T> = None | Some(value: T)

  /** `p` is a prefix of `s`. */
  predicate IsPrefix(p: string, s: string) {
    |p| <= |s| && s[..|p|] == p
  }

  /** `p` is a suffix of `s` (JavaScript `String.prototype.endsWith`). */
  predicate EndsWith(s: string, p: string) {
    |p| <= |s| && s[|s| - |p|..] == p
  }

  /** `t` occurs in `s` starting at position `i`. */
  predicate OccursAt(s: string, t: string, i: int)
  {
    0 <= i <= |s| - |t| && s[i..i + |t|] == t
  }

  /**
   * `t` occurs in `s` as a contiguous substring (JavaScript `String.prototype.includes`): true
   * exactly when `t` starts at some position of `s`, so the empty string occurs everywhere and a
   * longer string nowhere.
   */
  predicate Contains(s: string, t: string)
    ensures Contains(s, t) <==> exists i :: OccursAt(s, t, i)
    ensures t == [] ==> Contains(s, t)
    ensures Contains(s, t) ==> |t| <= |s|
    decreases |s|
  {
    OccursHereOrLater(s, t);
    IsPrefix(t, s) || (|s| > 0 && Contains(s[1..], t))
  }

  /** An occurrence of `t` in `s` starts at 0, or is an occurrence in `s[1..]` shifted by one. */
  lemma OccursHereOrLater(s: string, t: string)
    ensures (exists i :: OccursAt(s, t, i)) <==>
      (IsPrefix(t, s) || (|s| > 0 && exists i :: OccursAt(s[1..], t, i)))
    ensures t == [] ==> OccursAt(s, t, 0)
  {
    if exists i :: OccursAt(s, t, i) {
      var i :| OccursAt(s, t, i);
      if i == 0 {
        assert s[..|t|] == t;
      } else {
        assert s[1..][i - 1..i - 1 + |t|] == t;
        assert OccursAt(s[1..], t, i - 1);
      }
    }
    if |s| > 0 && exists i :: OccursAt(s[1..], t, i) {
      var i :| OccursAt(s[1..], t, i);
      assert s[i + 1..i + 1 + |t|] == t;
      assert OccursAt(s, t, i + 1);
    }
    if IsPrefix(t, s) {
      assert s[0..|t|] == t;
      assert OccursAt(s, t, 0);
    }
    if t == [] {
      assert s[0..0] == t;
    }
  }

  /** Lower-casing of one character; only the ASCII letters are mapped. */
  function LowerChar(c: char): (r: char)
    ensures 'A' <= c <= 'Z' ==> 'a' <= r <= 'z' && r as int == c as int + 32
    ensures !('A' <= c <= 'Z') ==> r == c
  {
    if 'A' <= c <= 'Z' then (c as int + 32) as char else c
  }

  /** `toLowerCase()` / `ToLower()` restricted to ASCII letters. */
  function ToLower(s: string): (r: string)
    ensures |r| == |s|
    ensures forall i :: 0 <= i < |s| ==> r[i] == LowerChar(s[i])
  {
    seq(|s|, i requires 0 <= i < |s| => LowerChar(s[i]))
  }

  /**
   * The characters JavaScript's `trim()` removes: the white space characters (tab, vertical
   * tab, form feed, the byte order mark and the space separators) and the line terminators.
   */
  predicate IsSpace(c: char) {
    || c == '\t' || c == '\U{000B}' || c == '\U{000C}' || c == ' ' || c == '\U{00A0}' || c == '\U{FEFF}'
    || c == '\U{1680}' || ('\U{2000}' <= c <= '\U{200A}') || c == '\U{202F}' || c == '\U{205F}' || c == '\U{3000}'
    || c == '\n' || c == '\r' || c == '\U{2028}' || c == '\U{2029}'
  }

  /** `s.trim()` is the empty string. */
  predicate IsBlank(s: string) {
    forall i :: 0 <= i < |s| ==> IsSpace(s[i])
  }

  /** `parts.join(sep)`. */
  function Join(parts: seq<string>, sep: string): string
    decreases |parts|
  {
    if |parts| == 0 then ""
    else if |parts| == 1 then parts[0]
    else parts[0] + sep + Join(parts[1..], sep)
  }

  /** `s.split(d)` for a one-character separator `d`: never empty, the pieces hold no `d`. */
  function Split(s: string, d: char): (r: seq<string>)
    ensures |r| >= 1
    decreases |s|
  {
    if |s| == 0 then [""]
    else
      var rest := Split(s[1..], d);
      if s[0] == d then [""] + rest
      else [[s[0]] + rest[0]] + rest[1..]
  }

  /** A decimal digit. */
  predicate IsDigit(c: char) {
    '0' <= c <= '9'
  }

  /** The number a string of decimal digits denotes, most significant digit first. */
  function DigitsValue(s: string): nat
    requires forall i :: 0 <= i < |s| ==> IsDigit(s[i])
  {
    if |s| == 0 then 0
    else
      assert IsDigit(s[|s| - 1]);
      DigitsValue(s[..|s| - 1]) * 10 + (s[|s| - 1] as int - '0' as int)
  }

  /**
   * Decimal rendering of a natural number, as JavaScript template literals print it: digits
   * only, no leading zero, and reading them back gives the number.
   */
  function NatToString(n: nat): (r: string)
    ensures |r| >= 1
    ensures forall i :: 0 <= i < |r| ==> IsDigit(r[i])
    ensures r[0] == '0' ==> r == "0"
    ensures DigitsValue(r) == n
  {
    if n < 10 then [('0' as int + n) as char]
    else
      var r := NatToString(n / 10) + [('0' as int + n % 10) as char];
      assert r[..|r| - 1] == NatToString(n / 10);
      r
  }

  /** A string with no `d` in it is a single piece when split on `d`. */
  lemma {:induction false} SplitNoSeparator(s: string, d: char)
    requires d !in s
    ensures Split(s, d) == [s]
    decreases |s|
  {
    if |s| > 0 {
      assert d !in s[1..];
      SplitNoSeparator(s[1..], d);
      assert [s[0]] + s[1..] == s;
    }
  }

  /** Splitting `p + [d] + rest` yields `p` followed by the pieces of `rest`. */
  lemma {:induction false} SplitAfterPiece(p: string, d: char, rest: string)
    requires d !in p
    ensures Split(p + [d] + rest, d) == [p] + Split(rest, d)
    decreases |p|
  {
    var s := p + [d] + rest;
    if |p| == 0 {
      assert s == [d] + rest;
      assert s[1..] == rest;
    } else {
      assert s[0] == p[0];
      assert s[1..] == p[1..] + [d] + rest;
      assert d !in p[1..];
      SplitAfterPiece(p[1..], d, rest);
      assert [p[0]] + p[1..] == p;
    }
  }

  /** Splitting undoes joining, as long as no piece holds the separator. */
  lemma {:induction false} SplitJoin(parts: seq<string>, d: char)
    requires |parts| >= 1
    requires forall i :: 0 <= i < |parts| ==> d !in parts[i]
    ensures Split(Join(parts, [d]), d) == parts
    decreases |parts|
  {
    if |parts| == 1 {
      SplitNoSeparator(parts[0], d);
    } else {
      SplitJoin(parts[1..], d);
      SplitAfterPiece(parts[0], d, Join(parts[1..], [d]));
      assert parts == [parts[0]] + parts[1..];
    }
  }

  /** Some element of a non-empty set. */
  lemma Pick<T>(s: set<T>) returns (x: T)
    requires s != {}
    ensures x in s
  {
    x :| x in s;
  }

  /**
   * `xs.filter(keep)`: the elements that pass, each as often as in `xs`, and none of the
   * others; their order is kept (`FilterConcat`).
   */
  function Filter<T(!new)>(xs: seq<T>, keep: T -> bool): (r: seq<T>)
    ensures |r| <= |xs|
    ensures forall x :: x in r <==> x in xs && keep(x)
    ensures forall x :: multiset(r)[x] == if keep(x) then multiset(xs)[x] else 0
  {
    if |xs| == 0 then []
    else
      assert xs == [xs[0]] + xs[1..];
      (if keep(xs[0]) then [xs[0]] else []) + Filter(xs[1..], keep)
  }

  /**
   * Filtering a concatenation filters each part and keeps them in order, so an element that
   * comes before another in `xs` still comes before it in the result.
   */
  lemma {:induction false} FilterConcat<T(!new)>(a: seq<T>, b: seq<T>, keep: T -> bool)
    ensures Filter(a + b, keep) == Filter(a, keep) + Filter(b, keep)
    decreases |a|
  {
    if |a| == 0 {
      assert a + b == b;
    } else {
      assert (a + b)[0] == a[0];
      assert (a + b)[1..] == a[1..] + b;
      FilterConcat(a[1..], b, keep);
    }
  }
}

=== FILE: dedup.dfy ===
/**
 * The one-off skill deduplication migration. Skills are grouped by exact name; in every group
 * of two or more the minimum id is kept, the offered and wanted rows that reference another id
 * of the group are repointed to it, and the other ids are deleted.
 */
module SkillDedup {
  import opened Common
  import opened SwapRecords
  import opened Server

  /** The ids of the skills named `n`. */
  function IdsNamed(skills: map<SkillId, Skill>, n: string): (ids: set<SkillId>)
    ensures forall id :: id in ids <==> id in skills && skills[id].name == n
  {
    set id | id in skills && skills[id].name == n
  }

  /** A non-empty set of ids has a least element. */
  lemma {:induction false} MinExists(ids: set<SkillId>)
    requires ids != {}
    ensures exists m :: m in ids && forall id :: id in ids ==> m <= id
    decreases |ids|
  {
    var x := Pick(ids);
    var rest := ids - {x};
    if rest == {} {
      assert ids == {x};
      assert x in ids && forall id :: id in ids ==> x <= id;
    } else {
      MinExists(rest);
      var m :| m in rest && forall id :: id in rest ==> m <= id;
      var least := if x < m then x else m;
      forall id | id in ids
        ensures least <= id
      {
        if id != x {
          assert id in rest;
        }
      }
      assert least in ids;
    }
  }

  /** `MIN(id)` over a group. */
  function MinId(ids: set<SkillId>): (m: SkillId)
    requires ids != {}
    ensures m in ids
    ensures forall id :: id in ids ==> m <= id
  {
    MinExists(ids);
    var m :| m in ids && forall id :: id in ids ==> m <= id;
    m
  }

  /** The id kept for the name of skill `id`: the least id carrying that name. */
  function Canonical(skills: map<SkillId, Skill>, id: SkillId): (c: SkillId)
    requires id in skills
    ensures c in skills && skills[c].name == skills[id].name && c <= id
  {
    MinId(IdsNamed(skills, skills[id].name))
  }

  /** `GROUP BY name HAVING cnt > 1`: the names held by more than one skill. */
  function DuplicatedNames(skills: map<SkillId, Skill>): (names: set<string>)
    ensures forall n :: n in names ==> |IdsNamed(skills, n)| > 1
    ensures forall id :: id in skills && |IdsNamed(skills, skills[id].name)| > 1 ==> skills[id].name in names
  {
    set id | id in skills && |IdsNamed(skills, skills[id].name)| > 1 :: skills[id].name
  }

  /** The skills table after the migration: every row that is the canonical one of its name. */
  function Deduplicated(skills: map<SkillId, Skill>): (r: map<SkillId, Skill>)
    ensures forall id :: id in r <==> id in skills && Canonical(skills, id) == id
    ensures forall id :: id in r ==> r[id] == skills[id]
  {
    map id | id in skills && Canonical(skills, id) == id :: skills[id]
  }

  /** Where a reference to skill `k` points after the migration; an unknown id is left alone. */
  function Repoint(skills: map<SkillId, Skill>, k: SkillId): SkillId {
    if k in skills then Canonical(skills, k) else k
  }

  /** An offered or wanted table after the migration: the same rows, each with its skill repointed. */
  function RepointRows(skills: map<SkillId, Skill>, rows: map<RowId, UserSkill>): (r: map<RowId, UserSkill>)
    ensures r.Keys == rows.Keys
    ensures forall id :: id in rows ==> r[id] == rows[id].(skill := Repoint(skills, rows[id].skill))
  {
    map id | id in rows :: rows[id].(skill := Repoint(skills, rows[id].skill))
  }

  /**
   * `UPDATE ... SET skill_id = canonical WHERE skill_id IN (dups)`: the rows referencing a
   * duplicate now reference the canonical id; every other row, and the set of rows, is unchanged.
   */
  function RepointTo(rows: map<RowId, UserSkill>, dups: set<SkillId>, canonical: SkillId): (r: map<RowId, UserSkill>)
    ensures r.Keys == rows.Keys
    ensures forall id :: id in rows && rows[id].skill in dups ==> r[id] == rows[id].(skill := canonical)
    ensures forall id :: id in rows && rows[id].skill !in dups ==> r[id] == rows[id]
  {
    map id | id in rows :: if rows[id].skill in dups then rows[id].(skill := canonical) else rows[id]
  }

  // ---------------------------------------------------------------------------
  // The state part way through the loop, after the groups of the names in `done`.

  function PartialSkills(s: map<SkillId, Skill>, done: set<string>): map<SkillId, Skill> {
    map id | id in s && (s[id].name !in done || Canonical(s, id) == id) :: s[id]
  }

  function PartialRepoint(s: map<SkillId, Skill>, done: set<string>, k: SkillId): SkillId {
    if k in s && s[k].name in done then Canonical(s, k) else k
  }

  function PartialRows(s: map<SkillId, Skill>, done: set<string>, rows: map<RowId, UserSkill>): map<RowId, UserSkill> {
    map id | id in rows :: rows[id].(skill := PartialRepoint(s, done, rows[id].skill))
  }

  /** One group's merge takes the skills table from `done` to `done + {n}`. */
  lemma StepSkills(s: map<SkillId, Skill>, done: set<string>, n: string)
    requires n !in done && IdsNamed(s, n) != {}
    ensures PartialSkills(s, done + {n}) == PartialSkills(s, done) - (IdsNamed(s, n) - {MinId(IdsNamed(s, n))})
  {
  }

  /** One group's merge takes an offered or wanted table from `done` to `done + {n}`. */
  lemma StepRows(s: map<SkillId, Skill>, done: set<string>, n: string, rows: map<RowId, UserSkill>)
    requires n !in done && IdsNamed(s, n) != {}
    ensures PartialRows(s, done + {n}, rows)
         == RepointTo(PartialRows(s, done, rows), IdsNamed(s, n) - {MinId(IdsNamed(s, n))}, MinId(IdsNamed(s, n)))
  {
    var ids := IdsNamed(s, n);
    var c := MinId(ids);
    var before := PartialRows(s, done, rows);
    var after := RepointTo(before, ids - {c}, c);
    forall id | id in rows
      ensures PartialRows(s, done + {n}, rows)[id] == after[id]
    {
      var k := rows[id].skill;
      if k in s && s[k].name == n {
        assert IdsNamed(s, s[k].name) == ids;
      } else if k in s && s[k].name in done {
        assert Canonical(s, k) !in ids;
      }
    }
  }

  /** Once every duplicated name is done, the partial state is the final one. */
  lemma AllDone(s: map<SkillId, Skill>, rows: map<RowId, UserSkill>)
    ensures PartialSkills(s, DuplicatedNames(s)) == Deduplicated(s)
    ensures PartialRows(s, DuplicatedNames(s), rows) == RepointRows(s, rows)
  {
    forall id | id in s && s[id].name !in DuplicatedNames(s)
      ensures Canonical(s, id) == id
    {
      SingleName(s, id);
    }
    forall id | id in rows
      ensures PartialRows(s, DuplicatedNames(s), rows)[id] == RepointRows(s, rows)[id]
    {
      var k := rows[id].skill;
      if k in s && s[k].name !in DuplicatedNames(s) {
        SingleName(s, k);
      }
    }
  }

  /** Before the first group, no row is repointed. */
  lemma NothingDone(s: map<SkillId, Skill>, rows: map<RowId, UserSkill>)
    ensures PartialRows(s, {}, rows) == rows
  {
    forall id | id in rows
      ensures PartialRows(s, {}, rows)[id] == rows[id]
    {
    }
  }

  /** A skill whose name is not duplicated is the canonical one of its name. */
  lemma SingleName(s: map<SkillId, Skill>, id: SkillId)
    requires id in s && s[id].name !in DuplicatedNames(s)
    ensures IdsNamed(s, s[id].name) == {id}
    ensures Canonical(s, id) == id
  {
    var ids := IdsNamed(s, s[id].name);
    assert id in ids;
    if ids != {id} {
      var other := Pick(ids - {id});
      assert {id, other} <= ids;
      SubsetSize({id, other}, ids);
      assert false;
    }
  }

  // ---------------------------------------------------------------------------
  // The migration

  /**
   * Steps 2 to 4 for one group: repoint the offered and wanted rows from the duplicates to
   * the canonical id, then delete the duplicates. A group with no duplicate is skipped.
   */
  method MergeGroup(db: Store, canonical: SkillId, dups: set<SkillId>)
    requires db.Valid()
    modifies db`skills, db`offered, db`wanted
    ensures db.Valid()
    ensures db.offered == RepointTo(old(db.offered), dups, canonical)
    ensures db.wanted == RepointTo(old(db.wanted), dups, canonical)
    ensures db.skills == old(db.skills) - dups
    ensures dups == {} ==> unchanged(db`skills) && unchanged(db`offered) && unchanged(db`wanted)
  {
    if |dups| == 0 {
      assert RepointTo(db.offered, dups, canonical) == db.offered;
      assert RepointTo(db.wanted, dups, canonical) == db.wanted;
      assert db.skills - dups == db.skills;
      return;
    }
    db.offered := RepointTo(db.offered, dups, canonical);
    db.wanted := RepointTo(db.wanted, dups, canonical);
    db.skills := db.skills - dups;
  }

  /** The `for` loop over the duplicate groups: each group of `names` is merged in turn. */
  method MergeGroups(db: Store, names: set<string>)
    requires db.Valid()
    requires forall n :: n in names ==> IdsNamed(db.skills, n) != {}
    modifies db`skills, db`offered, db`wanted
    ensures db.Valid()
    ensures db.skills == PartialSkills(old(db.skills), names)
    ensures db.offered == PartialRows(old(db.skills), names, old(db.offered))
    ensures db.wanted == PartialRows(old(db.skills), names, old(db.wanted))
  {
    var snapshot := db.skills;
    ghost var offered0, wanted0 := db.offered, db.wanted;
    NothingDone(snapshot, offered0);
    NothingDone(snapshot, wanted0);
    assert PartialSkills(snapshot, {}) == snapshot;
    var todo := names;
    ghost var done: set<string> := {};
    while todo != {}
      invariant db.Valid()
      invariant done !! todo && done + todo == names
      invariant db.skills == PartialSkills(snapshot, done)
      invariant db.offered == PartialRows(snapshot, done, offered0)
      invariant db.wanted == PartialRows(snapshot, done, wanted0)
      decreases |todo|
    {
      var name :| name in todo;
      var ids := IdsNamed(snapshot, name);
      var canonical := MinId(ids);
      StepSkills(snapshot, done, name);
      StepRows(snapshot, done, name, offered0);
      StepRows(snapshot, done, name, wanted0);
      MergeGroup(db, canonical, ids - {canonical});
      done := done + {name};
      todo := todo - {name};
    }
  }

  /**
   * `deduplicateSkills()`: "No duplicates found." and no change when no name is shared;
   * otherwise every group is merged and the result is "Deduplication complete.".
   * Swap requests are not touched (see `DeduplicateSkillsAndSwaps`).
   */
  method DeduplicateSkills(db: Store) returns (msg: string)
    requires db.Valid()
    modifies db`skills, db`offered, db`wanted
    ensures db.Valid()
    ensures msg == if DuplicatedNames(old(db.skills)) == {} then "No duplicates found." else "Deduplication complete."
    ensures db.skills == Deduplicated(old(db.skills))
    ensures db.offered == RepointRows(old(db.skills), old(db.offered))
    ensures db.wanted == RepointRows(old(db.skills), old(db.wanted))
  {
    var groups := DuplicatedNames(db.skills);
    AllDone(db.skills, db.offered);
    AllDone(db.skills, db.wanted);
    if groups == {} {
      NoDuplicatesNoChange(db.skills, db.offered);
      NoDuplicatesNoChange(db.skills, db.wanted);
      return "No duplicates found.";
    }
    MergeGroups(db, groups);
    msg := "Deduplication complete.";
  }

  // ---------------------------------------------------------------------------
  // What the migration guarantees

  /** With no shared name, the migration changes nothing. */
  lemma NoDuplicatesNoChange(s: map<SkillId, Skill>, rows: map<RowId, UserSkill>)
    requires DuplicatedNames(s) == {}
    ensures Deduplicated(s) == s
    ensures RepointRows(s, rows) == rows
  {
    forall id | id in s
      ensures Canonical(s, id) == id
    {
      SingleName(s, id);
    }
  }

  /** Afterwards no two skills share a name. */
  lemma NamesUnique(s: map<SkillId, Skill>)
    ensures forall a, b :: a in Deduplicated(s) && b in Deduplicated(s) && a != b ==>
      Deduplicated(s)[a].name != Deduplicated(s)[b].name
  {
    forall a, b | a in Deduplicated(s) && b in Deduplicated(s) && Deduplicated(s)[a].name == Deduplicated(s)[b].name
      ensures a == b
    {
      assert IdsNamed(s, s[a].name) == IdsNamed(s, s[b].name);
    }
  }

  /**
   * The kept id of every skill survives with that skill's name, and it is the least id of
   * the name; so every offered or wanted row that referenced an existing skill still does,
   * and to a skill of the same name.
   */
  lemma CanonicalSurvives(s: map<SkillId, Skill>, k: SkillId)
    requires k in s
    ensures Repoint(s, k) in Deduplicated(s)
    ensures Deduplicated(s)[Repoint(s, k)].name == s[k].name
    ensures forall id :: id in s && s[id].name == s[k].name ==> Repoint(s, k) <= id
  {
    var c := Canonical(s, k);
    assert IdsNamed(s, s[c].name) == IdsNamed(s, s[k].name);
  }

  /** Rows that referenced an existing skill reference an existing skill of the same name afterwards. */
  lemma ReferencesKept(s: map<SkillId, Skill>, rows: map<RowId, UserSkill>)
    ensures forall id :: id in rows && rows[id].skill in s ==>
      && RepointRows(s, rows)[id].skill in Deduplicated(s)
      && Deduplicated(s)[RepointRows(s, rows)[id].skill].name == s[rows[id].skill].name
  {
    forall id | id in rows && rows[id].skill in s
      ensures RepointRows(s, rows)[id].skill in Deduplicated(s)
      ensures Deduplicated(s)[RepointRows(s, rows)[id].skill].name == s[rows[id].skill].name
    {
      CanonicalSurvives(s, rows[id].skill);
    }
  }

  /** The deduplicated table has no duplicated name, so running the migration again changes nothing. */
  lemma Idempotent(s: map<SkillId, Skill>, rows: map<RowId, UserSkill>)
    ensures DuplicatedNames(Deduplicated(s)) == {}
    ensures Deduplicated(Deduplicated(s)) == Deduplicated(s)
    ensures RepointRows(Deduplicated(s), RepointRows(s, rows)) == RepointRows(s, rows)
  {
    var d := Deduplicated(s);
    NamesUnique(s);
    forall n
      ensures n !in DuplicatedNames(d)
    {
      var ids := IdsNamed(d, n);
      if ids != {} {
        var a := Pick(ids);
        assert ids == {a};
      }
    }
    NoDuplicatesNoChange(d, RepointRows(s, rows));
  }

  // ---------------------------------------------------------------------------
  // Swap requests and the migration

  /** The inner JOINs of `GET /api/swaps`: a swap is listed only while both its skills exist. */
  predicate Listed(skills: map<SkillId, Skill>, row: SwapRow) {
    row.requesterSkill in skills && row.recipientSkill in skills
  }

  /**
   * As written, the migration leaves `swap_requests` alone: with two skills named "Guitar"
   * (ids 1 and 2), a swap offering skill 2 is listed before the migration and, its skill
   * deleted, no longer listed after it.
   */
  lemma SwapLeftDangling()
    ensures var s := map[1 := Skill("Guitar", "Music", "", 1), 2 := Skill("Guitar", "Music", "", 1)];
            var row := SwapRow(10, 20, 2, 1, "", "accepted", "in_progress", None, None, false, false, None, None);
            Listed(s, row) && !Listed(Deduplicated(s), row)
  {
    var s := map[1 := Skill("Guitar", "Music", "", 1), 2 := Skill("Guitar", "Music", "", 1)];
    assert IdsNamed(s, "Guitar") == {1, 2};
    assert Canonical(s, 2) == 1;
  }

  /** The swap table after the corrected migration: both skill references repointed. */
  function RepointSwaps(skills: map<SkillId, Skill>, swaps: map<SwapId, SwapRow>): (r: map<SwapId, SwapRow>)
    ensures r.Keys == swaps.Keys
    ensures forall id :: id in swaps ==>
      r[id] == swaps[id].(requesterSkill := Repoint(skills, swaps[id].requesterSkill),
                          recipientSkill := Repoint(skills, swaps[id].recipientSkill))
  {
    map id | id in swaps :: swaps[id].(requesterSkill := Repoint(skills, swaps[id].requesterSkill),
                                       recipientSkill := Repoint(skills, swaps[id].recipientSkill))
  }

  /**
   * The migration with the swap requests repointed as well, before the duplicates are
   * deleted: the offered, wanted and skills tables end as in `DeduplicateSkills`.
   */
  method DeduplicateSkillsAndSwaps(db: Store) returns (msg: string)
    requires db.Valid()
    modifies db`skills, db`offered, db`wanted, db`swaps
    ensures db.Valid()
    ensures msg == if DuplicatedNames(old(db.skills)) == {} then "No duplicates found." else "Deduplication complete."
    ensures db.skills == Deduplicated(old(db.skills))
    ensures db.offered == RepointRows(old(db.skills), old(db.offered))
    ensures db.wanted == RepointRows(old(db.skills), old(db.wanted))
    ensures db.swaps == RepointSwaps(old(db.skills), old(db.swaps))
  {
    var snapshot := db.skills;
    db.swaps := RepointSwaps(snapshot, db.swaps);
    msg := DeduplicateSkills(db);
  }

  /**
   * With the correction, every swap that was listed stays listed, and each of its two skills
   * keeps its name.
   */
  lemma SwapsStayListed(s: map<SkillId, Skill>, swaps: map<SwapId, SwapRow>)
    ensures forall id :: id in swaps && Listed(s, swaps[id]) ==>
      && Listed(Deduplicated(s), RepointSwaps(s, swaps)[id])
      && Deduplicated(s)[RepointSwaps(s, swaps)[id].requesterSkill].name == s[swaps[id].requesterSkill].name
      && Deduplicated(s)[RepointSwaps(s, swaps)[id].recipientSkill].name == s[swaps[id].recipientSkill].name
  {
    forall id | id in swaps && Listed(s, swaps[id])
      ensures Listed(Deduplicated(s), RepointSwaps(s, swaps)[id])
      ensures Deduplicated(s)[RepointSwaps(s, swaps)[id].requesterSkill].name == s[swaps[id].requesterSkill].name
      ensures Deduplicated(s)[RepointSwaps(s, swaps)[id].recipientSkill].name == s[swaps[id].recipientSkill].name
    {
      CanonicalSurvives(s, swaps[id].requesterSkill);
      CanonicalSurvives(s, swaps[id].recipientSkill);
    }
  }
}

=== FILE: mail.dfy ===
/**
 * The mail service's `POST /MailSystem/send`: validation of the request, the case-insensitive
 * choice of subject and template, and the single call to the injected sender. Each HTML
 * template is the fixed text around the title and the description; the style sheet in the
 * fixed text is abbreviated here.
 */
module MailSystem {
  import opened Common

  /** The request body; a missing JSON property binds to `null`. */
  datatype MailRequest = MailRequest(
    email: Option<string>,
    kind: Option<string>,
    title: Option<string>,
    description: Option<string>)

  /** One call of `SendEmailAsync3`. */
  datatype Mail = Mail(to: string, subject: string, htmlBody: string)

  /** The controller's answer. */
  datatype ActionResult = Ok(message: string) | BadRequest(message: string)

  datatype MessageType = NewFeature | UpdateFeature | Downtime

  /** `string.IsNullOrEmpty`. */
  predicate IsNullOrEmpty(s: Option<string>) {
    s.None? || s.value == ""
  }

  /** The `switch` on `Type.ToLower()`: the three known lower-case names, nothing else. */
  function ParseType(t: string): (m: Option<MessageType>)
    ensures m == Some(NewFeature) <==> ToLower(t) == "newfeature"
    ensures m == Some(UpdateFeature) <==> ToLower(t) == "updatefeature"
    ensures m == Some(Downtime) <==> ToLower(t) == "downtime"
  {
    var lower := ToLower(t);
    if lower == "newfeature" then Some(NewFeature)
    else if lower == "updatefeature" then Some(UpdateFeature)
    else if lower == "downtime" then Some(Downtime)
    else None
  }

  /** Types that differ only in the case of ASCII letters select the same message. */
  lemma ParseTypeIgnoresCase(a: string, b: string)
    requires ToLower(a) == ToLower(b)
    ensures ParseType(a) == ParseType(b)
  {
  }

  /** The spellings the request examples use are recognised. */
  lemma KnownSpellings()
    ensures ParseType("NewFeature") == Some(NewFeature)
    ensures ParseType("UpdateFeature") == Some(UpdateFeature)
    ensures ParseType("Downtime") == Some(Downtime)
    ensures ParseType("DOWNTIME") == Some(Downtime)
  {
    assert ToLower("NewFeature") == "newfeature";
    assert ToLower("UpdateFeature") == "updatefeature";
    assert ToLower("Downtime") == "downtime";
    assert ToLower("DOWNTIME") == "downtime";
  }

  /** The subject each case of the `switch` sets. */
  function Subject(m: MessageType): (s: string) {
    match m
    case NewFeature => "New Feature Released"
    case UpdateFeature => "Feature Update Notification"
    case Downtime => "Scheduled Downtime Alert"
  }

  /** The three subjects are different, so the subject tells the message type. */
  lemma SubjectsDistinct(a: MessageType, b: MessageType)
    requires a != b
    ensures Subject(a) != Subject(b)
  {
  }

  /** The fixed text of a template: before the title, between title and description, after. */
  datatype Template = Template(prefix: string, middle: string, suffix: string)

  const Crlf := "\r\n"

  const Doctype := "<!DOCTYPE html>"

  /** The document head and the opening of the container; the style sheet is not modelled. */
  function Head(pageTitle: string): (h: string)
    ensures IsPrefix(Doctype, h)
  {
    var rest := Crlf + "<html lang=\"en\">" + Crlf + "<head>" + Crlf
      + "    <meta charset=\"UTF-8\">" + Crlf
      + "    <meta name=\"viewport\" content=\"width=device-width, initial-scale=1.0\">" + Crlf
      + "    <title>" + pageTitle + "</title>" + Crlf
      + "</head>" + Crlf + "<body>" + Crlf + "    <div class=\"container\">" + Crlf;
    assert (Doctype + rest)[..|Doctype|] == Doctype;
    Doctype + rest
  }

  /** Heading, introduction and the opening of the section, up to where the title goes. */
  function Opening(heading: string, intro: string, section: string): string {
    "        <h1>" + heading + "</h1>" + Crlf
    + "        <p>" + intro + "</p>" + Crlf
    + "        <div class=\"" + section + "-section\">" + Crlf
    + "            <div class=\"" + section + "-title\">"
  }

  /** Between the title and the description. */
  const Middle := "</div>" + Crlf + "            <div>"

  const Html := "</html>"

  /** After the description: the closing paragraphs, the logo and the footer. */
  function Closing(outro: string, signOff: string): (c: string)
    ensures EndsWith(c, Html)
  {
    var rest := "</div>" + Crlf
      + "        </div>" + Crlf
      + "        <p>" + outro + "</p>" + Crlf
      + "        <p>" + signOff + ",<br>The Team</p>" + Crlf
      + "        <div class=\"logo\">" + Crlf
      + "            <img src=\"https://encrypted-tbn0.gstatic.com/images?q=tbn:ANd9GcRmPE7yTUe9LJnDy-IKhQ7O16Ix9jmMD0CBTA&s\" alt=\"Company Logo\" />" + Crlf
      + "        </div>" + Crlf
      + "        <div class=\"footer\">" + Crlf
      + "            &copy; 2025 Company Name. All rights reserved." + Crlf
      + "        </div>" + Crlf
      + "    </div>" + Crlf
      + "</body>" + Crlf;
    assert (rest + Html)[|rest|..] == Html;
    rest + Html
  }

  /** A prefix of `a` is a prefix of `a + b`. */
  lemma PrefixOfConcat(p: string, a: string, b: string)
    requires IsPrefix(p, a)
    ensures IsPrefix(p, a + b)
  {
    assert (a + b)[..|p|] == a[..|p|];
  }

  /**
   * A template from its texts: the head and the opening before the title, the middle, and the
   * closing after the description. It is a whole HTML document around the two slots.
   */
  function Assemble(pageTitle: string, heading: string, intro: string, section: string,
                    outro: string, signOff: string): (t: Template)
    ensures IsPrefix(Doctype, t.prefix) && t.middle == Middle && EndsWith(t.suffix, Html)
  {
    PrefixOfConcat(Doctype, Head(pageTitle), Opening(heading, intro, section));
    Template(Head(pageTitle) + Opening(heading, intro, section), Middle, Closing(outro, signOff))
  }

  /** The template of each type: an HTML document from the doctype to the closing tag. */
  function TemplateOf(m: MessageType): (t: Template)
    ensures IsPrefix(Doctype, t.prefix) && EndsWith(t.suffix, Html)
  {
    match m
    case NewFeature =>
      Assemble("New Feature Update", "We\U{2019}ve Launched a New Feature!",
               "We're excited to let you know about a new feature we've just released:", "feature",
               "We hope you find it helpful. Stay tuned for more updates!", "Best regards")
    case UpdateFeature =>
      Assemble("Feature Update", "We've Improved an Existing Feature!",
               "We\U{2019}ve made some important updates to one of your favorite features:", "feature",
               "We hope this update enhances your experience. As always, thank you for being with us!", "Best regards")
    case Downtime =>
      Assemble("Downtime Alert", "Important Downtime Notification",
               "Please note the following scheduled downtime or service interruption:", "alert",
               "We apologize for any inconvenience and appreciate your understanding.", "Thank you")
  }

  /** C# string concatenation: a null operand contributes nothing. */
  function Text(s: Option<string>): string {
    if s.Some? then s.value else ""
  }

  /** The fixed text of a template around a title and a description. */
  function Fill(t: Template, title: string, description: string): string {
    t.prefix + title + t.middle + description + t.suffix
  }

  /** A filled template is its prefix, the title, its middle, the description and its suffix, in that order. */
  lemma FillSlices(t: Template, title: string, description: string)
    ensures var body := Fill(t, title, description);
      var a := |t.prefix|; var b := a + |title| + |t.middle|;
      && |body| == b + |description| + |t.suffix|
      && body[..a] == t.prefix
      && body[a..a + |title|] == title
      && body[a + |title|..b] == t.middle
      && body[b..b + |description|] == description
      && body[b + |description|..] == t.suffix
  {
  }

  /**
   * Given the title's length, a filled template gives back its title and its description, so
   * two fillings of one template are equal only when their texts are (the length is needed as
   * the fixed text itself may contain the title's characters).
   */
  lemma {:induction false} FillInjective(t: Template, t1: string, d1: string, t2: string, d2: string)
    requires |t1| == |t2|
    requires Fill(t, t1, d1) == Fill(t, t2, d2)
    ensures t1 == t2 && d1 == d2
  {
    FillSlices(t, t1, d1);
    FillSlices(t, t2, d2);
    var a := |t.prefix|;
    var b := a + |t1| + |t.middle|;
    assert t1 == Fill(t, t1, d1)[a..a + |t1|];
    assert t2 == Fill(t, t2, d2)[a..a + |t2|];
    assert |d1| == |d2|;
    assert d1 == Fill(t, t1, d1)[b..b + |d1|];
    assert d2 == Fill(t, t2, d2)[b..b + |d2|];
  }

  /** A filled template starts with its prefix and the title and ends with the description and its suffix. */
  lemma FillFrames(t: Template, title: string, description: string)
    ensures IsPrefix(t.prefix + title, Fill(t, title, description))
    ensures EndsWith(Fill(t, title, description), description + t.suffix)
  {
    var body := Fill(t, title, description);
    FillSlices(t, title, description);
    var a := |t.prefix|;
    var b := a + |title| + |t.middle|;
    assert body[..a + |title|] == body[..a] + body[a..a + |title|];
    assert body[b..] == body[b..b + |description|] + body[b + |description|..];
  }

  /**
   * `NewFeatureToUsers`, `FeatureUpdateToUsers`, `DowntimeAlertToUsers`: the title and the
   * description, a null one as "", embedded verbatim and unescaped in the type's template, the
   * title right after its opening text and the description right before its closing text.
   */
  function Render(m: MessageType, title: Option<string>, description: Option<string>): (body: string)
    ensures IsPrefix(TemplateOf(m).prefix + Text(title), body)
    ensures EndsWith(body, Text(description) + TemplateOf(m).suffix)
  {
    FillFrames(TemplateOf(m), Text(title), Text(description));
    Fill(TemplateOf(m), Text(title), Text(description))
  }

  /** The controller with its injected sender, whose calls are recorded in `sent`. */
  class MailSystemController {
    var sent: seq<Mail>

    constructor ()
      ensures sent == []
    {
      sent := [];
    }

    /**
     * `Send`: BadRequest when the email or the type is null or empty, BadRequest for an
     * unknown type, and in both cases no mail; otherwise exactly one mail to the request's
     * address with the type's subject and rendered body, and Ok.
     */
    method Send(request: MailRequest) returns (r: ActionResult)
      modifies this
      ensures IsNullOrEmpty(request.email) || IsNullOrEmpty(request.kind) ==>
        r == BadRequest("Email and Type are required.") && sent == old(sent)
      ensures !IsNullOrEmpty(request.email) && !IsNullOrEmpty(request.kind) && ParseType(request.kind.value).None? ==>
        r == BadRequest("Invalid message type.") && sent == old(sent)
      ensures !IsNullOrEmpty(request.email) && !IsNullOrEmpty(request.kind) && ParseType(request.kind.value).Some? ==>
        var m := ParseType(request.kind.value).value;
        && r == Ok("Email sent successfully.")
        && sent == old(sent) + [Mail(request.email.value, Subject(m), Render(m, request.title, request.description))]
    {
      if IsNullOrEmpty(request.email) || IsNullOrEmpty(request.kind) {
        return BadRequest("Email and Type are required.");
      }
      var m := ParseType(request.kind.value);
      if m.None? {
        return BadRequest("Invalid message type.");
      }
      var subject := Subject(m.value);
      var htmlBody := Render(m.value, request.title, request.description);
      sent := sent + [Mail(request.email.value, subject, htmlBody)];
      r := Ok("Email sent successfully.");
    }
  }
}

=== FILE: pagination.dfy ===
/**
 * The client-side pagination shared by the swap requests page (five per page) and the user
 * directory (six per page): `Math.ceil` for the page count, `Array.prototype.slice` for the
 * page, and the clamped previous and next buttons.
 */
module Pagination {

  /** `Math.ceil(n / per)`. */
  function TotalPages(n: nat, per: nat): (t: nat)
    requires per > 0
    ensures (t - 1) * per < n <= t * per || (n == 0 && t == 0)
  {
    (n + per - 1) / per
  }

  /** An index argument of `slice`: a negative one counts from the end, then it is clamped to the length. */
  function SliceIndex(i: int, len: nat): (k: nat)
    ensures k <= len
    ensures 0 <= i <= len ==> k == i
  {
    if i < 0 then (if len + i < 0 then 0 else len + i)
    else if i > len then len
    else i
  }

  /**
   * `items.slice(start, end)`: the items from the clamped start up to the clamped end, none
   * when the end is not past the start.
   */
  function JsSlice<T>(items: seq<T>, start: int, end: int): (r: seq<T>)
    ensures var s, e := SliceIndex(start, |items|), SliceIndex(end, |items|);
      && |r| == (if s < e then e - s else 0)
      && forall i :: 0 <= i < |r| ==> r[i] == items[s + i]
  {
    var s := SliceIndex(start, |items|);
    var e := SliceIndex(end, |items|);
    if s < e then items[s..e] else []
  }

  /**
   * The items shown on page `p`: `items.slice((p - 1) * per, p * per)`. Whatever the page
   * number, it shows at most `per` of the items; from page 1 on, the ones from index
   * `(p - 1) * per` on, in order.
   */
  function Page<T>(items: seq<T>, p: int, per: nat): (r: seq<T>)
    ensures |r| <= per
    ensures forall x :: x in r ==> x in items
    ensures p >= 1 ==> forall i :: 0 <= i < |r| ==> (p - 1) * per + i < |items| && r[i] == items[(p - 1) * per + i]
  {
    PageBounds(p, per);
    SliceSpread((p - 1) * per, p * per, |items|);
    JsSlice(items, (p - 1) * per, p * per)
  }

  /** Page `p` starts `per` items before it ends, and from page 1 on it starts at 0 or later. */
  lemma PageBounds(p: int, per: nat)
    ensures p * per == (p - 1) * per + per
    ensures p >= 1 ==> (p - 1) * per >= 0
  {
    if p >= 1 {
      MulMono(0, p - 1, per);
    }
  }

  /** Clamping two `slice` indices never moves them further apart. */
  lemma SliceSpread(start: int, end: int, len: nat)
    requires start <= end
    ensures SliceIndex(end, len) - SliceIndex(start, len) <= end - start
  {
  }

  /**
   * A page from 1 on holds at most `per` items: exactly the items with indices in
   * [(p - 1) * per, p * per) that exist. A page past the last one is empty.
   */
  lemma PageContents<T>(items: seq<T>, p: int, per: nat)
    requires per > 0 && p >= 1
    ensures |Page(items, p, per)| <= per
    ensures forall i :: 0 <= i < |Page(items, p, per)| ==>
      (p - 1) * per + i < |items| && Page(items, p, per)[i] == items[(p - 1) * per + i]
    ensures p > TotalPages(|items|, per) ==> Page(items, p, per) == []
    ensures p <= TotalPages(|items|, per) ==> |Page(items, p, per)| > 0
  {
    var n := |items|;
    var t := TotalPages(n, per);
    var start, end := (p - 1) * per, p * per;
    assert end == start + per;
    MulMono(0, p - 1, per);
    if p > t {
      MulMono(t, p - 1, per);
      assert n <= start;
    } else {
      MulMono(p - 1, t - 1, per);
      assert start < n;
    }
  }

  /** Multiplying by a natural number keeps the order. */
  lemma MulMono(a: int, b: int, per: nat)
    requires a <= b
    ensures a * per <= b * per
  {
    assert b * per - a * per == (b - a) * per;
  }

  /** Item `i` is shown on page `i / per + 1`, at position `i % per`. */
  lemma ItemPage<T>(items: seq<T>, i: nat, per: nat)
    requires per > 0 && i < |items|
    ensures i % per < |Page(items, i / per + 1, per)|
    ensures Page(items, i / per + 1, per)[i % per] == items[i]
    ensures 1 <= i / per + 1 <= TotalPages(|items|, per)
  {
    var p := i / per + 1;
    assert (p - 1) * per + i % per == i;
    assert p * per == (p - 1) * per + per;
    PageContents(items, p, per);
  }

  /** Pages 1 to `k`, one after another. */
  function Pages<T>(items: seq<T>, k: nat, per: nat): seq<T> {
    if k == 0 then [] else Pages(items, k - 1, per) + Page(items, k, per)
  }

  /** Pages 1 to `k` are the first `k * per` items (all of them once `k * per` reaches the length). */
  lemma {:induction false} PagesPrefix<T>(items: seq<T>, k: nat, per: nat)
    requires per > 0
    ensures Pages(items, k, per) == items[..if k * per <= |items| then k * per else |items|]
  {
    if k > 0 {
      PagesPrefix(items, k - 1, per);
      var n := |items|;
      var a := if (k - 1) * per <= n then (k - 1) * per else n;
      var b := if k * per <= n then k * per else n;
      assert (k - 1) * per <= k * per;
      assert Page(items, k, per) == items[a..b];
      assert items[..a] + items[a..b] == items[..b];
    }
  }

  /** The pages 1 to `TotalPages` together show every item exactly once, in order. */
  lemma PagesCoverAll<T>(items: seq<T>, per: nat)
    requires per > 0
    ensures Pages(items, TotalPages(|items|, per), per) == items
  {
    PagesPrefix(items, TotalPages(|items|, per), per);
  }

  /** The previous-page button: `Math.max(1, p - 1)`. */
  function Prev(p: int): (q: int)
    ensures q >= 1
    ensures p > 1 ==> q == p - 1
  {
    if 1 > p - 1 then 1 else p - 1
  }

  /** The next-page button: `Math.min(totalPages, p + 1)`. */
  function Next(p: int, totalPages: nat): (q: int)
    ensures q <= totalPages
    ensures p < totalPages ==> q == p + 1
  {
    if totalPages < p + 1 then totalPages else p + 1
  }

  /** The controls are drawn only when there is more than one page. */
  predicate ShowControls(totalPages: nat) {
    totalPages > 1
  }

  /** The controls appear exactly when there are more items than one page holds. */
  lemma ControlsIffOverflow(n: nat, per: nat)
    requires per > 0
    ensures ShowControls(TotalPages(n, per)) <==> n > per
  {
    var t := TotalPages(n, per);
    if n > per {
      assert t * per >= n > per;
      if t <= 1 { MulMono(t, 1, per); }
    } else if t > 1 {
      MulMono(1, t - 1, per);
    }
  }

  /** The numbered buttons: `Array.from({ length: totalPages }, (_, i) => i + 1)`. */
  function PageNumbers(totalPages: nat): seq<int> {
    seq(totalPages, i => i + 1)
  }

  /**
   * While the controls are shown, the previous and next buttons keep the current page within
   * [1, totalPages], and there is exactly one numbered button for each page, in order.
   */
  lemma ButtonsStayInRange(p: int, totalPages: nat)
    requires ShowControls(totalPages) && 1 <= p <= totalPages
    ensures |PageNumbers(totalPages)| == totalPages
    ensures forall q :: q in PageNumbers(totalPages) <==> 1 <= q <= totalPages
    ensures forall i, j :: 0 <= i < j < totalPages ==> PageNumbers(totalPages)[i] < PageNumbers(totalPages)[j]
    ensures 1 <= Prev(p) <= totalPages
    ensures 1 <= Next(p, totalPages) <= totalPages
    ensures p == 1 ==> Prev(p) == p
    ensures p == totalPages ==> Next(p, totalPages) == p
  {
    forall q | 1 <= q <= totalPages
      ensures q in PageNumbers(totalPages)
    {
      assert PageNumbers(totalPages)[q - 1] == q;
    }
  }
}

=== FILE: reports.dfy ===
/**
 * The admin report download: the id-column cleaner, the CSV-like serialiser `toCSV`, the
 * attachment file name and the `/api/admin/reports/:type` dispatch. The three SELECT
 * statements are not part of this model: what they return is a parameter.
 */
module Reports {
  import opened Common
  import opened Server

  /** A column value as the SQLite driver returns it. */
  datatype Value = Null | Text(text: string) | Number(n: int)

  /** A result row: its columns in SELECT order, as the keys of a JavaScript object. */
  type Row = seq<(string, Value)>

  /** `Object.keys(row)`. */
  function Keys(row: Row): (ks: seq<string>)
    ensures |ks| == |row|
    ensures forall i :: 0 <= i < |row| ==> ks[i] == row[i].0
  {
    seq(|row|, i requires 0 <= i < |row| => row[i].0)
  }

  /** `row[k]`: the value of the column named `k`, or `undefined`. */
  function Lookup(row: Row, k: string): (v: Option<Value>)
    ensures v.Some? <==> k in Keys(row)
  {
    if |row| == 0 then None
    else if row[0].0 == k then Some(row[0].1)
    else Lookup(row[1..], k)
  }

  /** The columns a report never shows: `id` and every name ending in `_id`. */
  predicate IsIdColumn(k: string) {
    k == "id" || EndsWith(k, "_id")
  }

  /**
   * A row without its id columns, the other columns in their order. The result holds no id
   * column and holds every other column of the row.
   */
  function WithoutIds(row: Row): (r: Row)
    ensures forall i :: 0 <= i < |r| ==> !IsIdColumn(r[i].0)
    ensures forall c :: c in r <==> c in row && !IsIdColumn(c.0)
    ensures |r| <= |row|
  {
    if |row| == 0 then []
    else if IsIdColumn(row[0].0) then WithoutIds(row[1..])
    else [row[0]] + WithoutIds(row[1..])
  }

  /** Removing the id columns hides exactly the id columns: every other lookup is unchanged. */
  lemma {:induction false} WithoutIdsLookup(row: Row, k: string)
    ensures Lookup(WithoutIds(row), k) == if IsIdColumn(k) then None else Lookup(row, k)
    decreases |row|
  {
    if |row| > 0 {
      WithoutIdsLookup(row[1..], k);
    }
  }

  /** Extending a row by one column extends its cleaned copy by that column unless it is an id. */
  lemma {:induction false} WithoutIdsSnoc(row: Row, c: (string, Value))
    ensures WithoutIds(row + [c]) == WithoutIds(row) + (if IsIdColumn(c.0) then [] else [c])
    decreases |row|
  {
    if |row| == 0 {
      assert row + [c] == [c];
      assert [c][1..] == [];
    } else {
      assert (row + [c])[1..] == row[1..] + [c];
      WithoutIdsSnoc(row[1..], c);
    }
  }

  /** The copy of one result row with its id columns deleted. */
  method CleanRow(row: Row) returns (clean: Row)
    ensures clean == WithoutIds(row)
  {
    clean := [];
    for i := 0 to |row|
      invariant clean == WithoutIds(row[..i])
    {
      WithoutIdsSnoc(row[..i], row[i]);
      assert row[..i + 1] == row[..i] + [row[i]];
      if !IsIdColumn(row[i].0) {
        clean := clean + [row[i]];
      }
    }
    assert row[..|row|] == row;
  }

  /** `rows.map(...)`: every result row cleaned, in order. */
  method CleanRows(rows: seq<Row>) returns (clean: seq<Row>)
    ensures |clean| == |rows|
    ensures forall i :: 0 <= i < |rows| ==> clean[i] == WithoutIds(rows[i])
  {
    clean := [];
    for i := 0 to |rows|
      invariant |clean| == i
      invariant forall j :: 0 <= j < i ==> clean[j] == WithoutIds(rows[j])
    {
      var c := CleanRow(rows[i]);
      clean := clean + [c];
    }
  }

  /** `row[h] ?? ""`: a missing or null column becomes the empty string, any other value stays. */
  function Cell(row: Row, h: string): (v: Value)
    ensures v != Null
    ensures Lookup(row, h).Some? && Lookup(row, h).value != Null ==> v == Lookup(row, h).value
    ensures (Lookup(row, h).None? || Lookup(row, h) == Some(Null)) ==> v == Text("")
  {
    match Lookup(row, h)
    case None => Text("")
    case Some(Null) => Text("")
    case Some(v) => v
  }

  /** The cells of one data line, each value under `headers` passed through the encoder. */
  function Cells(row: Row, headers: seq<string>, encode: Value -> string): (cells: seq<string>)
    ensures |cells| == |headers|
    ensures forall j :: 0 <= j < |headers| ==> cells[j] == encode(Cell(row, headers[j]))
  {
    seq(|headers|, j requires 0 <= j < |headers| => encode(Cell(row, headers[j])))
  }

  /**
   * The lines of the output for a non-empty result: the first row's keys, then one line of
   * comma-joined encoded cells per row, every row read under the first row's keys.
   */
  function CsvLines(rows: seq<Row>, encode: Value -> string): (lines: seq<string>)
    requires |rows| > 0
    ensures |lines| == |rows| + 1
    ensures lines[0] == Join(Keys(rows[0]), ",")
    ensures forall i :: 0 <= i < |rows| ==> lines[i + 1] == Join(Cells(rows[i], Keys(rows[0]), encode), ",")
  {
    [Join(Keys(rows[0]), ",")]
      + seq(|rows|, i requires 0 <= i < |rows| => Join(Cells(rows[i], Keys(rows[0]), encode), ","))
  }

  /** A joined string holds no `d` when neither the pieces nor the separator do. */
  lemma {:induction false} JoinAvoids(parts: seq<string>, sep: string, d: char)
    requires d !in sep
    requires forall i :: 0 <= i < |parts| ==> d !in parts[i]
    ensures d !in Join(parts, sep)
    decreases |parts|
  {
    if |parts| > 1 {
      JoinAvoids(parts[1..], sep, d);
    }
  }

  /** A joined list of two or more pieces is never empty when the separator is not. */
  lemma JoinNonEmpty(parts: seq<string>, sep: string)
    requires |parts| >= 2 && |sep| > 0
    ensures Join(parts, sep) != ""
  {
    assert |Join(parts, sep)| >= |parts[0] + sep|;
  }

  /**
   * `toCSV(rows)`: "" for no rows; otherwise the lines of `CsvLines` separated by LF.
   * `encode` stands for `JSON.stringify`, so every cell is JSON-quoted rather than quoted as
   * RFC 4180 requires.
   */
  method ToCsv(rows: seq<Row>, encode: Value -> string) returns (csv: string)
    ensures csv == "" <==> |rows| == 0
    ensures |rows| > 0 ==> csv == Join(CsvLines(rows, encode), "\n")
  {
    if |rows| == 0 {
      return "";
    }
    var headers := Keys(rows[0]);
    var lines := [Join(headers, ",")];
    for i := 0 to |rows|
      invariant |lines| == i + 1 && lines[0] == Join(headers, ",")
      invariant forall j :: 0 <= j < i ==> lines[j + 1] == Join(Cells(rows[j], headers, encode), ",")
    {
      lines := lines + [Join(Cells(rows[i], headers, encode), ",")];
    }
    assert lines == CsvLines(rows, encode);
    csv := Join(lines, "\n");
    JoinNonEmpty(lines, "\n");
  }

  /**
   * Reading the output back: when neither the keys nor the encoded values contain a line
   * feed (JSON string encoding, section 7 of RFC 8259, escapes it), splitting on LF yields
   * the header line and exactly one line per row, in order.
   */
  lemma CsvLinesRoundTrip(rows: seq<Row>, encode: Value -> string)
    requires |rows| > 0
    requires forall k :: k in Keys(rows[0]) ==> '\n' !in k
    requires forall v :: '\n' !in encode(v)
    ensures Split(Join(CsvLines(rows, encode), "\n"), '\n') == CsvLines(rows, encode)
    ensures |Split(Join(CsvLines(rows, encode), "\n"), '\n')| == |rows| + 1
  {
    var lines := CsvLines(rows, encode);
    var headers := Keys(rows[0]);
    forall i | 0 <= i < |lines|
      ensures '\n' !in lines[i]
    {
      if i == 0 {
        JoinAvoids(headers, ",", '\n');
      } else {
        JoinAvoids(Cells(rows[i - 1], headers, encode), ",", '\n');
      }
    }
    SplitJoin(lines, '\n');
  }

  /** The three report types the route accepts. */
  datatype ReportType = UsersReport | FeedbackReport | SwapsReport

  /** The `:type` path segment, or `None` for any other text. */
  function ParseReportType(t: string): (k: Option<ReportType>)
    ensures k == Some(UsersReport) <==> t == "users"
    ensures k == Some(FeedbackReport) <==> t == "feedback"
    ensures k == Some(SwapsReport) <==> t == "swaps"
  {
    if t == "users" then Some(UsersReport)
    else if t == "feedback" then Some(FeedbackReport)
    else if t == "swaps" then Some(SwapsReport)
    else None
  }

  /** The `user_id` query parameter when it is truthy: present and not the empty string. */
  function UserFilter(userId: Option<string>): (f: Option<string>)
    ensures f.Some? <==> userId.Some? && userId.value != ""
    ensures f.Some? ==> f == userId
  {
    if userId.Some? && userId.value != "" then userId else None
  }

  /**
   * The attachment name: the type, then `_user_` and the id when a user filter is given, then
   * `_report.csv`. The type and the id can be read back from the name.
   */
  function ReportFileName(t: string, userId: Option<string>): (name: string)
    ensures IsPrefix(t, name) && EndsWith(name, "_report.csv")
    ensures UserFilter(userId).None? <==> |name| == |t| + 11
    ensures UserFilter(userId).Some? ==>
      && |name| == |t| + 17 + |userId.value|
      && name[|t|..|t| + 6] == "_user_"
      && name[|t| + 6..|name| - 11] == userId.value
  {
    t + (if UserFilter(userId).Some? then "_user_" + userId.value else "") + "_report.csv"
  }

  /** What the report route sends: a CSV attachment or the cleaned rows as JSON. */
  datatype Download = Csv(fileName: string, body: string) | Json(rows: seq<Row>)

  /**
   * `GET /api/admin/reports/:type`: 403 for a non-admin, 400 "Invalid report type" for an
   * unknown type; otherwise the rows `query` returns for the type and the user filter, with
   * their id columns removed, as CSV when `csvFormat` holds and as JSON otherwise.
   */
  method Report(isAdmin: bool, t: string, userId: Option<string>, csvFormat: bool,
                query: (ReportType, Option<string>) -> seq<Row>, encode: Value -> string)
    returns (r: Reply<Download>)
    ensures !isAdmin ==> r == Forbidden()
    ensures isAdmin && ParseReportType(t).None? ==> r == Fail(400, "Invalid report type")
    ensures isAdmin && ParseReportType(t).Some? ==> r.Ok? && (r.value.Csv? <==> csvFormat)
    ensures r.Ok? && r.value.Json? ==>
      var rows := query(ParseReportType(t).value, UserFilter(userId));
      && |r.value.rows| == |rows|
      && forall i :: 0 <= i < |rows| ==> r.value.rows[i] == WithoutIds(rows[i])
    ensures r.Ok? && r.value.Csv? ==>
      var rows := query(ParseReportType(t).value, UserFilter(userId));
      && r.value.fileName == ReportFileName(t, userId)
      && (|rows| == 0 ==> r.value.body == "")
      && (|rows| > 0 ==> r.value.body == Join(CsvLines(seq(|rows|, i requires 0 <= i < |rows| => WithoutIds(rows[i])), encode), "\n"))
  {
    if !isAdmin {
      return Forbidden();
    }
    var kind := ParseReportType(t);
    if kind.None? {
      return Fail(400, "Invalid report type");
    }
    var rows := query(kind.value, UserFilter(userId));
    var cleanRows := CleanRows(rows);
    if csvFormat {
      var csv := ToCsv(cleanRows, encode);
      assert cleanRows == seq(|rows|, i requires 0 <= i < |rows| => WithoutIds(rows[i]));
      r := Ok(Csv(ReportFileName(t, userId), csv));
    } else {
      r := Ok(Json(cleanRows));
    }
  }
}

=== FILE: server.dfy ===
/**
 * The Express server's tables and the routes that change or read them: the swap lifecycle
 * (create, status change, delete, progress), ratings, the skill directory with its per-user
 * offered and wanted lists, and the admin routes. The authenticated user's id and admin flag
 * (decoded from the bearer token) are parameters; every request runs as one atomic step.
 */
module Server {
  import opened Common
  import opened SwapRecords

  type RowId = int
  type SwapId = int

  datatype User = User(
    username: string,
    email: string,
    name: string,
    isPublic: bool,
    isBanned: bool,
    isAdmin: bool,
    availability: string,
    updatedAt: Option<Timestamp>)

  /** A `skills` row. `approval` holds the raw `is_approved` value: 1 approved, 0 pending. */
  datatype Skill = Skill(name: string, category: string, description: string, approval: int)

  /** A `user_skills_offered` or `user_skills_wanted` row. */
  datatype UserSkill = UserSkill(user: UserId, skill: SkillId, description: string, proficiency: Option<string>)

  /** A `ratings` row. `rated_user_id` is stored as sent, so it may be NULL. */
  datatype Rating = Rating(swap: SwapId, rater: UserId, ratedUser: Option<UserId>, score: int, feedback: string)

  /** A skill on a user's list in `GET /api/admin/users`: the list row's id, the skill's id and name. */
  datatype UserSkillRef = UserSkillRef(userSkillId: RowId, skill: SkillId, name: string)

  /** A user of `GET /api/admin/users` with the offered and wanted skills attached. */
  datatype UserWithSkills = UserWithSkills(user: User, skillsOffered: set<UserSkillRef>, skillsWanted: set<UserSkillRef>)

  datatype AdminMessage = AdminMessage(admin: UserId, title: string, message: string)

  /**
   * The column defaults of `swap_requests` that an INSERT does not name. They come from the
   * schema script, which is not part of this model, so they are a parameter of the store.
   */
  datatype SwapDefaults = SwapDefaults(
    status: string,
    tracking: string,
    requesterNotes: Option<string>,
    recipientNotes: Option<string>,
    requesterCompleted: bool,
    recipientCompleted: bool,
    updatedAt: Option<Timestamp>)

  /** An HTTP reply: a JSON payload, or a status code with its error text. */
  datatype Reply<+T> = Ok(value: T) | Fail(status: int, error: string)

  /** `res.sendStatus(403)`. */
  function Forbidden<T>(): Reply<T> {
    Fail(403, "Forbidden")
  }

  /** The text SQLite reports for `UPDATE swap_requests SET , updated_at = ...`. */
  const MalformedUpdate := "SQLITE_ERROR: near \",\": syntax error"

  datatype Stats = Stats(
    totalUsers: nat,
    activeUsers: nat,
    totalSkills: nat,
    pendingSkills: nat,
    totalSwaps: nat,
    completedSwaps: nat)

  /**
   * The row a `POST /api/swaps` inserts: the named columns, the rest from the defaults. Both
   * users take part in it, it is not completed, and its requester may withdraw it exactly when
   * the default status is `pending`.
   */
  function NewSwapRow(d: SwapDefaults, requester: UserId, recipient: UserId,
                      requesterSkill: SkillId, recipientSkill: SkillId, message: string): (row: SwapRow)
    ensures IsParticipant(row, requester) && IsParticipant(row, recipient)
    ensures row.requesterSkill == requesterSkill && row.recipientSkill == recipientSkill && row.message == message
    ensures row.completedAt.None?
    ensures Deletable(row, requester) <==> d.status == "pending"
  {
    SwapRow(requester, recipient, requesterSkill, recipientSkill, message,
            d.status, d.tracking, d.requesterNotes, d.recipientNotes,
            d.requesterCompleted, d.recipientCompleted, None, d.updatedAt)
  }

  /**
   * The tracking status a status change writes beside the new status.
   * It is `in_progress` exactly for `accepted`, and `pending` for every other value.
   */
  function TrackingAfterStatus(status: string): (t: string)
    ensures t == "in_progress" <==> status == "accepted"
    ensures t != "in_progress" ==> t == "pending"
  {
    if status == "accepted" then "in_progress" else "pending"
  }

  /**
   * The row after a status change by a participant: the new status, the tracking status that
   * goes with it, the new `updated_at`, and every other column as it was.
   */
  function WithStatus(row: SwapRow, status: string, now: Timestamp): (r: SwapRow)
    ensures r.status == status && (r.tracking == "in_progress" <==> status == "accepted")
    ensures r.updatedAt == Some(now)
    ensures r.(status := row.status, tracking := row.tracking, updatedAt := row.updatedAt) == row
  {
    row.(status := status, tracking := TrackingAfterStatus(status), updatedAt := Some(now))
  }

  /** A DELETE by `actor` matches the row. */
  predicate Deletable(row: SwapRow, actor: UserId) {
    row.status == "pending" && row.requester == actor
  }

  class Store {
    var users: map<UserId, User>
    var skills: map<SkillId, Skill>
    var offered: map<RowId, UserSkill>
    var wanted: map<RowId, UserSkill>
    var swaps: map<SwapId, SwapRow>
    var ratings: map<RowId, Rating>
    var messages: map<RowId, AdminMessage>

    // The next rowid of each table: always above every id in use.
    var nextSkillId: int
    var nextOfferedId: int
    var nextWantedId: int
    var nextSwapId: int
    var nextRatingId: int
    var nextMessageId: int

    const defaults: SwapDefaults

    ghost predicate Valid()
      reads this
    {
      && (forall id :: id in skills ==> id < nextSkillId)
      && (forall id :: id in offered ==> id < nextOfferedId)
      && (forall id :: id in wanted ==> id < nextWantedId)
      && (forall id :: id in swaps ==> id < nextSwapId)
      && (forall id :: id in ratings ==> id < nextRatingId)
      && (forall id :: id in messages ==> id < nextMessageId)
    }

    /** A database holding the given users and otherwise empty. */
    constructor (defaults: SwapDefaults, users: map<UserId, User>)
      ensures Valid()
      ensures this.defaults == defaults && this.users == users
      ensures skills == map[] && offered == map[] && wanted == map[]
      ensures swaps == map[] && ratings == map[] && messages == map[]
    {
      this.defaults := defaults;
      this.users := users;
      skills, offered, wanted := map[], map[], map[];
      swaps, ratings, messages := map[], map[], map[];
      nextSkillId, nextOfferedId, nextWantedId := 1, 1, 1;
      nextSwapId, nextRatingId, nextMessageId := 1, 1, 1;
    }

    // -------------------------------------------------------------------------
    // Swap lifecycle

    /** `POST /api/swaps`: inserts a swap requested by the authenticated user; nothing is checked. */
    method CreateSwap(actor: UserId, recipient: UserId, requesterSkill: SkillId,
                      recipientSkill: SkillId, message: string) returns (id: SwapId)
      requires Valid()
      modifies this`swaps, this`nextSwapId
      ensures Valid()
      ensures id !in old(swaps)
      ensures swaps == old(swaps)[id := NewSwapRow(defaults, actor, recipient, requesterSkill, recipientSkill, message)]
    {
      id := nextSwapId;
      swaps := swaps[id := NewSwapRow(defaults, actor, recipient, requesterSkill, recipientSkill, message)];
      nextSwapId := nextSwapId + 1;
    }

    /**
     * `PATCH /api/swaps/:id`: sets the status, unvalidated, and resets the tracking status,
     * on the row only when the actor is one of its two participants.
     */
    method SetSwapStatus(id: SwapId, actor: UserId, status: string, now: Timestamp) returns (changes: int)
      requires Valid()
      modifies this`swaps
      ensures Valid()
      ensures changes == (if id in old(swaps) && IsParticipant(old(swaps)[id], actor) then 1 else 0)
      ensures changes == 1 ==> swaps == old(swaps)[id := WithStatus(old(swaps)[id], status, now)]
      ensures changes == 0 ==> swaps == old(swaps)
    {
      var trackingStatus := "pending";
      if status == "accepted" {
        trackingStatus := "in_progress";
      }
      if id in swaps && (swaps[id].requester == actor || swaps[id].recipient == actor) {
        swaps := swaps[id := swaps[id].(status := status, tracking := trackingStatus, updatedAt := Some(now))];
        changes := 1;
      } else {
        changes := 0;
      }
    }

    /** `DELETE /api/swaps/:id`: removes the swap only while pending and only for its requester. */
    method DeleteSwap(id: SwapId, actor: UserId) returns (deleted: int)
      requires Valid()
      modifies this`swaps
      ensures Valid()
      ensures deleted == (if id in old(swaps) && Deletable(old(swaps)[id], actor) then 1 else 0)
      ensures deleted == 1 ==> swaps == old(swaps) - {id}
      ensures deleted == 0 ==> swaps == old(swaps)
    {
      if id in swaps && swaps[id].status == "pending" && swaps[id].requester == actor {
        swaps := swaps - {id};
        deleted := 1;
      } else {
        deleted := 0;
      }
    }

    /**
     * `PATCH /api/swaps/:id/progress`: 404 for a missing swap, 403 for a non-participant,
     * 400 when the body names no column (the UPDATE is then malformed); otherwise the row
     * becomes `ProgressOutcome` and one row is reported changed.
     */
    method UpdateProgress(id: SwapId, actor: UserId, body: ProgressBody, now: Timestamp)
      returns (r: Reply<int>)
      requires Valid()
      modifies this`swaps
      ensures Valid()
      ensures id !in old(swaps) ==> r == Fail(404, "Swap not found") && swaps == old(swaps)
      ensures id in old(swaps) && !IsParticipant(old(swaps)[id], actor) ==>
        r == Fail(403, "Not authorized") && swaps == old(swaps)
      ensures id in old(swaps) && IsParticipant(old(swaps)[id], actor) && NamesNoColumn(body) ==>
        r == Fail(400, MalformedUpdate) && swaps == old(swaps)
      ensures id in old(swaps) && IsParticipant(old(swaps)[id], actor) && !NamesNoColumn(body) ==>
        r == Ok(1) && swaps == old(swaps)[id := ProgressOutcome(old(swaps)[id], actor, body, now)]
    {
      if id !in swaps {
        return Fail(404, "Swap not found");
      }
      var swap := swaps[id];
      if swap.requester != actor && swap.recipient != actor {
        return Fail(403, "Not authorized");
      }
      var fields := PlanProgress(swap, actor, body, now);
      if |fields| == 0 {
        return Fail(400, MalformedUpdate);
      }
      swaps := swaps[id := RunUpdate(swap, fields, now)];
      r := Ok(1);
    }

    /**
     * `POST /api/ratings`: inserts the rating as sent. Nothing checks that the swap exists or
     * is completed, that the rater took part, or that the rater has not rated it before.
     */
    method SubmitRating(actor: UserId, swap: SwapId, ratedUser: Option<UserId>, score: int, feedback: string)
      returns (id: RowId)
      requires Valid()
      modifies this`ratings, this`nextRatingId
      ensures Valid()
      ensures id !in old(ratings)
      ensures ratings == old(ratings)[id := Rating(swap, actor, ratedUser, score, feedback)]
    {
      id := nextRatingId;
      ratings := ratings[id := Rating(swap, actor, ratedUser, score, feedback)];
      nextRatingId := nextRatingId + 1;
    }

    // -------------------------------------------------------------------------
    // Skill directory

    /** `POST /api/skills`: every new skill starts unapproved. */
    method AddSkill(name: string, category: string, description: string) returns (id: SkillId)
      requires Valid()
      modifies this`skills, this`nextSkillId
      ensures Valid()
      ensures id !in old(skills)
      ensures skills == old(skills)[id := Skill(name, category, description, 0)]
    {
      id := nextSkillId;
      skills := skills[id := Skill(name, category, description, 0)];
      nextSkillId := nextSkillId + 1;
    }

    /** `GET /api/skills`: exactly the skills whose `is_approved` is 1. */
    function ApprovedSkills(): (r: map<SkillId, Skill>)
      reads this
      ensures forall id :: id in r <==> id in skills && skills[id].approval == 1
      ensures forall id :: id in r ==> r[id] == skills[id]
    {
      map id | id in skills && skills[id].approval == 1 :: skills[id]
    }

    /** `POST /api/user/skills/offered`: a row owned by the authenticated user. */
    method OfferSkill(actor: UserId, skill: SkillId, description: string, proficiency: Option<string>)
      returns (id: RowId)
      requires Valid()
      modifies this`offered, this`nextOfferedId
      ensures Valid()
      ensures id !in old(offered)
      ensures offered == old(offered)[id := UserSkill(actor, skill, description, proficiency)]
    {
      id := nextOfferedId;
      offered := offered[id := UserSkill(actor, skill, description, proficiency)];
      nextOfferedId := nextOfferedId + 1;
    }

    /** `POST /api/user/skills/wanted`: a row owned by the authenticated user, without proficiency. */
    method WantSkill(actor: UserId, skill: SkillId, description: string) returns (id: RowId)
      requires Valid()
      modifies this`wanted, this`nextWantedId
      ensures Valid()
      ensures id !in old(wanted)
      ensures wanted == old(wanted)[id := UserSkill(actor, skill, description, None)]
    {
      id := nextWantedId;
      wanted := wanted[id := UserSkill(actor, skill, description, None)];
      nextWantedId := nextWantedId + 1;
    }

    /** `DELETE /api/user/skills/offered/:id`: removes the row only for its owner. */
    method RemoveOffered(id: RowId, actor: UserId) returns (deleted: int)
      requires Valid()
      modifies this`offered
      ensures Valid()
      ensures deleted == (if id in old(offered) && old(offered)[id].user == actor then 1 else 0)
      ensures offered == if deleted == 1 then old(offered) - {id} else old(offered)
    {
      if id in offered && offered[id].user == actor {
        offered := offered - {id};
        deleted := 1;
      } else {
        deleted := 0;
      }
    }

    /** `DELETE /api/user/skills/wanted/:id`: removes the row only for its owner. */
    method RemoveWanted(id: RowId, actor: UserId) returns (deleted: int)
      requires Valid()
      modifies this`wanted
      ensures Valid()
      ensures deleted == (if id in old(wanted) && old(wanted)[id].user == actor then 1 else 0)
      ensures wanted == if deleted == 1 then old(wanted) - {id} else old(wanted)
    {
      if id in wanted && wanted[id].user == actor {
        wanted := wanted - {id};
        deleted := 1;
      } else {
        deleted := 0;
      }
    }

    // -------------------------------------------------------------------------
    // Admin routes: each answers 403 to a caller whose token lacks the admin flag.

    /**
     * `GET /api/admin/users`: for an admin only, every user, each with the skills of their
     * offered and wanted rows (rows naming a missing skill drop out of the join).
     */
    function AdminListUsers(isAdmin: bool): (r: Reply<map<UserId, UserWithSkills>>)
      reads this
      ensures !isAdmin ==> r == Forbidden()
      ensures isAdmin ==> r.Ok? && r.value.Keys == users.Keys
      ensures isAdmin ==> forall id :: id in users ==>
        && r.value[id].user == users[id]
        && r.value[id].skillsOffered == SkillsOf(offered, skills, id)
        && r.value[id].skillsWanted == SkillsOf(wanted, skills, id)
    {
      if !isAdmin then Forbidden()
      else Ok(map id | id in users :: UserWithSkills(users[id], SkillsOf(offered, skills, id), SkillsOf(wanted, skills, id)))
    }

    /**
     * `PATCH /api/admin/users/:id`: sets the ban and admin flags that are present (as 1/0);
     * 400 when neither is present; one change exactly when the user exists.
     */
    method AdminUpdateUser(isAdmin: bool, id: UserId, banned: Option<bool>, admin: Option<bool>, now: Timestamp)
      returns (r: Reply<int>)
      requires Valid()
      modifies this`users
      ensures Valid()
      ensures !isAdmin ==> r == Forbidden() && users == old(users)
      ensures isAdmin && banned.None? && admin.None? ==>
        r == Fail(400, "No valid updates provided") && users == old(users)
      ensures isAdmin && (banned.Some? || admin.Some?) ==>
        r == Ok(if id in old(users) then 1 else 0)
      ensures isAdmin && (banned.Some? || admin.Some?) && id in old(users) ==>
        users == old(users)[id := old(users)[id].(
          isBanned := if banned.Some? then banned.value else old(users)[id].isBanned,
          isAdmin := if admin.Some? then admin.value else old(users)[id].isAdmin,
          updatedAt := Some(now))]
      ensures id !in old(users) ==> users == old(users)
    {
      if !isAdmin {
        return Forbidden();
      }
      if banned.None? && admin.None? {
        return Fail(400, "No valid updates provided");
      }
      if id in users {
        var u := users[id];
        if banned.Some? {
          u := u.(isBanned := banned.value);
        }
        if admin.Some? {
          u := u.(isAdmin := admin.value);
        }
        users := users[id := u.(updatedAt := Some(now))];
        r := Ok(1);
      } else {
        r := Ok(0);
      }
    }

    /** `GET /api/admin/skills/pending`: the skills whose `is_approved` is 0, for an admin only. */
    function PendingSkills(isAdmin: bool): (r: Reply<map<SkillId, Skill>>)
      reads this
      ensures !isAdmin ==> r == Forbidden()
      ensures isAdmin ==> r.Ok? && forall id :: id in r.value <==> id in skills && skills[id].approval == 0
      ensures isAdmin ==> forall id :: id in r.value ==> r.value[id] == skills[id]
    {
      if !isAdmin then Forbidden()
      else Ok(map id | id in skills && skills[id].approval == 0 :: skills[id])
    }

    /** `PATCH /api/admin/skills/:id`: stores the `is_approved` value as sent. */
    method AdminSetApproval(isAdmin: bool, id: SkillId, approval: int) returns (r: Reply<int>)
      requires Valid()
      modifies this`skills
      ensures Valid()
      ensures !isAdmin ==> r == Forbidden() && skills == old(skills)
      ensures isAdmin ==> r == Ok(if id in old(skills) then 1 else 0)
      ensures isAdmin && id in old(skills) ==>
        skills == old(skills)[id := old(skills)[id].(approval := approval)]
      ensures id !in old(skills) ==> skills == old(skills)
    {
      if !isAdmin {
        return Forbidden();
      }
      if id in skills {
        skills := skills[id := skills[id].(approval := approval)];
        r := Ok(1);
      } else {
        r := Ok(0);
      }
    }

    /**
     * `GET /api/admin/stats`: the six counters. `completedSwaps` counts swaps whose status is
     * `accepted`, and `activeUsers` counts the distinct owners of offered skills.
     */
    function AdminStats(isAdmin: bool): (r: Reply<Stats>)
      reads this
      ensures !isAdmin ==> r == Forbidden()
      ensures isAdmin ==> r.Ok?
      ensures isAdmin ==> r.value.totalUsers == |users| && r.value.totalSwaps == |swaps|
      ensures isAdmin ==> r.value.totalSkills == |set id | id in skills && skills[id].approval == 1|
      ensures isAdmin ==> r.value.pendingSkills == |set id | id in skills && skills[id].approval == 0|
      ensures isAdmin ==> r.value.completedSwaps == |set id | id in swaps && swaps[id].status == "accepted"|
      ensures isAdmin ==> r.value.activeUsers == |set id | id in offered :: offered[id].user|
      ensures isAdmin ==> r.value.totalSkills + r.value.pendingSkills <= |skills|
      ensures isAdmin ==> r.value.completedSwaps <= r.value.totalSwaps
      ensures isAdmin ==> r.value.activeUsers <= |offered|
    {
      if !isAdmin then Forbidden()
      else
        var approved := set id | id in skills && skills[id].approval == 1;
        var pending := set id | id in skills && skills[id].approval == 0;
        var accepted := set id | id in swaps && swaps[id].status == "accepted";
        var owners := set id | id in offered :: offered[id].user;
        assert approved !! pending;
        SubsetSize(approved + pending, skills.Keys);
        SubsetSize(accepted, swaps.Keys);
        OwnersBound(offered);
        Ok(Stats(|users|, |owners|, |approved|, |pending|, |swaps|, |accepted|))
    }

    /**
     * `POST /api/admin/messages`: stores the message; its broadcast goes to
     * `BroadcastRecipients()` (the sending itself is not part of this model).
     */
    method PostAdminMessage(isAdmin: bool, actor: UserId, title: string, message: string)
      returns (r: Reply<RowId>)
      requires Valid()
      modifies this`messages, this`nextMessageId
      ensures Valid()
      ensures !isAdmin ==> r == Forbidden() && messages == old(messages)
      ensures isAdmin ==>
        && r.Ok? && r.value !in old(messages)
        && messages == old(messages)[r.value := AdminMessage(actor, title, message)]
    {
      if !isAdmin {
        return Forbidden();
      }
      var id := nextMessageId;
      messages := messages[id := AdminMessage(actor, title, message)];
      nextMessageId := nextMessageId + 1;
      r := Ok(id);
    }

    /** The addresses an admin broadcast is sent to: those of every user who is not banned. */
    function BroadcastRecipients(): (emails: set<string>)
      reads this
      ensures forall e :: e in emails <==> exists id :: id in users && !users[id].isBanned && users[id].email == e
    {
      set id | id in users && !users[id].isBanned :: users[id].email
    }
  }

  /**
   * The skills on one user's offered or wanted list, as the admin listing joins them: one entry
   * per row of that user whose skill exists, with the skill's name.
   */
  function SkillsOf(rows: map<RowId, UserSkill>, skills: map<SkillId, Skill>, u: UserId): (refs: set<UserSkillRef>)
    ensures forall e :: e in refs <==>
      exists k :: k in rows && rows[k].user == u && rows[k].skill in skills && e == UserSkillRef(k, rows[k].skill, skills[rows[k].skill].name)
  {
    set k | k in rows && rows[k].user == u && rows[k].skill in skills :: UserSkillRef(k, rows[k].skill, skills[rows[k].skill].name)
  }

  /**
   * `GET /api/users/:id/ratings`: the ratings whose `rated_user_id` is the user, joined with a
   * rater who exists. A rating stored without a rated user is in nobody's list.
   */
  function ReceivedRatings(ratings: map<RowId, Rating>, users: map<UserId, User>, u: UserId): (rs: set<RowId>)
    ensures forall k :: k in rs <==> k in ratings && ratings[k].ratedUser == Some(u) && ratings[k].rater in users
    ensures forall k :: k in ratings && ratings[k].ratedUser.None? ==> k !in rs
  {
    set k | k in ratings && ratings[k].ratedUser == Some(u) && ratings[k].rater in users
  }

  /** There are no more distinct owners than rows. */
  lemma OwnersBound(offered: map<RowId, UserSkill>)
    ensures |set id | id in offered :: offered[id].user| <= |offered|
  {
    ImageBound(offered.Keys, offered);
    assert |offered.Keys| == |offered|;
  }

  /** The owners of the rows keyed by `ks` are no more numerous than the keys. */
  lemma {:induction false} ImageBound(ks: set<RowId>, m: map<RowId, UserSkill>)
    requires ks <= m.Keys
    ensures |set id | id in ks :: m[id].user| <= |ks|
    decreases |ks|
  {
    if ks != {} {
      var k := Pick(ks);
      var img := set id | id in ks :: m[id].user;
      var rest := set id | id in ks - {k} :: m[id].user;
      ImageBound(ks - {k}, m);
      assert img <= rest + {m[k].user};
      SubsetSize(img, rest + {m[k].user});
    }
  }

  /** A subset is no larger than its superset. */
  lemma {:induction false} SubsetSize<T>(a: set<T>, b: set<T>)
    requires a <= b
    ensures |a| <= |b|
    decreases |b|
  {
    if a != {} {
      var x :| x in a;
      SubsetSize(a - {x}, b - {x});
    }
  }
}

=== FILE: skills_page.dfy ===
/**
 * The selection rules of the "My Skills" page: toggling a skill in and out of the pending
 * selection, the skills still available to add, the search filter, the selection summary
 * text, and the guards in front of the add and new-skill requests.
 */
module SkillsPage {
  import opened Common
  import opened SwapRecords

  /** An approved skill as `GET /api/skills` lists it. */
  datatype SkillEntry = SkillEntry(id: SkillId, name: string, category: string)

  /** `prev.filter(x => x !== id)`. */
  function Without(prev: seq<SkillId>, id: SkillId): (r: seq<SkillId>)
    ensures forall x :: x in r <==> x in prev && x != id
    ensures |r| <= |prev|
  {
    if |prev| == 0 then []
    else (if prev[0] == id then [] else [prev[0]]) + Without(prev[1..], id)
  }

  /** A list without `id` is left as it is by removing `id`. */
  lemma {:induction false} WithoutAbsent(prev: seq<SkillId>, id: SkillId)
    requires id !in prev
    ensures Without(prev, id) == prev
    decreases |prev|
  {
    if |prev| > 0 {
      WithoutAbsent(prev[1..], id);
      assert [prev[0]] + prev[1..] == prev;
    }
  }

  /** Removing the last element when it is the only copy of `id` gives back the rest. */
  lemma {:induction false} WithoutAppended(prev: seq<SkillId>, id: SkillId)
    requires id !in prev
    ensures Without(prev + [id], id) == prev
    decreases |prev|
  {
    if |prev| == 0 {
      assert [id][1..] == [];
    } else {
      assert (prev + [id])[1..] == prev[1..] + [id];
      WithoutAppended(prev[1..], id);
      assert [prev[0]] + prev[1..] == prev;
    }
  }

  /**
   * `handleOfferedSkillToggle` / `handleWantedSkillToggle`: remove the id when it is selected,
   * append it otherwise. Afterwards the id is selected exactly when it was not, and every other
   * id is as before.
   */
  function Toggle(prev: seq<SkillId>, id: SkillId): (r: seq<SkillId>)
    ensures id in r <==> id !in prev
    ensures forall x :: x != id ==> (x in r <==> x in prev)
  {
    if id in prev then Without(prev, id) else prev + [id]
  }

  /** Toggling an id that is not selected twice restores the selection. */
  lemma ToggleTwice(prev: seq<SkillId>, id: SkillId)
    requires id !in prev
    ensures Toggle(Toggle(prev, id), id) == prev
  {
    WithoutAppended(prev, id);
  }

  /** No id occurs twice. */
  predicate Distinct(xs: seq<SkillId>) {
    forall i, j :: 0 <= i < j < |xs| ==> xs[i] != xs[j]
  }

  /** A selection without repeats stays without repeats. */
  lemma {:induction false} ToggleKeepsDistinct(prev: seq<SkillId>, id: SkillId)
    requires Distinct(prev)
    ensures Distinct(Toggle(prev, id))
  {
    if id in prev {
      WithoutKeepsDistinct(prev, id);
      assert Toggle(prev, id) == Without(prev, id);
    } else {
      var r := prev + [id];
      forall i, j | 0 <= i < j < |r|
        ensures r[i] != r[j]
      {
        if j == |prev| {
          assert r[i] == prev[i];
        }
      }
    }
  }

  /** Removing an id from a selection without repeats leaves one without repeats. */
  lemma {:induction false} WithoutKeepsDistinct(prev: seq<SkillId>, id: SkillId)
    requires Distinct(prev)
    ensures Distinct(Without(prev, id))
    decreases |prev|
  {
    if |prev| > 0 {
      assert Distinct(prev[1..]) by {
        forall i, j | 0 <= i < j < |prev| - 1
          ensures prev[1..][i] != prev[1..][j]
        {
          assert prev[1..][i] == prev[i + 1] && prev[1..][j] == prev[j + 1];
        }
      }
      WithoutKeepsDistinct(prev[1..], id);
      var rest := Without(prev[1..], id);
      assert prev[0] !in prev[1..];
      if prev[0] != id {
        var r := [prev[0]] + rest;
        assert Without(prev, id) == r;
        forall i, j | 0 <= i < j < |r|
          ensures r[i] != r[j]
        {
          assert r[j] == rest[j - 1] && rest[j - 1] in rest;
          if i > 0 {
            assert r[i] == rest[i - 1];
          }
        }
      } else {
        assert Without(prev, id) == rest;
      }
    }
  }

  /**
   * `profile.skills_offered?.map(s => s.id) || []`: the ids already on the profile, none when
   * the profile has no list.
   */
  function CurrentIds(onProfile: Option<seq<SkillId>>): (ids: seq<SkillId>)
    ensures forall id :: id in ids <==> onProfile.Some? && id in onProfile.value
  {
    if onProfile.Some? then onProfile.value else []
  }

  /**
   * The search term matches a skill: the lower-cased term occurs, at some position, in the
   * lower-cased name or in the lower-cased category. The empty term matches every skill, and a
   * term longer than both fields matches none.
   */
  predicate Matches(skill: SkillEntry, term: string)
    ensures Matches(skill, term) <==>
      (exists i :: OccursAt(ToLower(skill.name), ToLower(term), i)) ||
      (exists i :: OccursAt(ToLower(skill.category), ToLower(term), i))
    ensures term == "" ==> Matches(skill, term)
    ensures Matches(skill, term) ==> |term| <= |skill.name| || |term| <= |skill.category|
  {
    Contains(ToLower(skill.name), ToLower(term)) || Contains(ToLower(skill.category), ToLower(term))
  }

  /**
   * `getAvailableOfferedSkills` / `getAvailableWantedSkills`: the approved skills not yet on
   * the profile, narrowed by the search term unless it is blank. The term itself is not
   * trimmed before matching.
   */
  function Available(approved: seq<SkillEntry>, onProfile: Option<seq<SkillId>>, term: string): (r: seq<SkillEntry>)
    ensures forall s :: s in r <==>
      s in approved && s.id !in CurrentIds(onProfile) && (IsBlank(term) || Matches(s, term))
    ensures |r| <= |approved|
  {
    var ids := CurrentIds(onProfile);
    var available := Filter(approved, (s: SkillEntry) => s.id !in ids);
    if IsBlank(term) then available
    else Filter(available, (s: SkillEntry) => Matches(s, term))
  }

  /** Matching ignores the case of ASCII letters in the term. */
  lemma MatchIgnoresCase(skill: SkillEntry, a: string, b: string)
    requires ToLower(a) == ToLower(b)
    ensures Matches(skill, a) <==> Matches(skill, b)
  {
  }

  /** A blank search term filters nothing: every approved skill not on the profile is offered. */
  lemma BlankKeepsAll(approved: seq<SkillEntry>, onProfile: Option<seq<SkillId>>, term: string)
    requires IsBlank(term)
    ensures Available(approved, onProfile, term) == Filter(approved, (s: SkillEntry) => s.id !in CurrentIds(onProfile))
  {
  }

  /** `approved.find(s => s.id === id)`: the first approved skill with the id. */
  function Find(approved: seq<SkillEntry>, id: SkillId): (r: Option<SkillEntry>)
    ensures r.Some? ==> r.value in approved && r.value.id == id
    ensures r.Some? ==>
      exists k :: 0 <= k < |approved| && approved[k] == r.value && (forall j :: 0 <= j < k ==> approved[j].id != id)
    ensures r.None? <==> forall i :: 0 <= i < |approved| ==> approved[i].id != id
  {
    if |approved| == 0 then None
    else if approved[0].id == id then Some(approved[0])
    else
      var r := Find(approved[1..], id);
      assert forall k :: 1 <= k < |approved| ==> approved[k] == approved[1..][k - 1];
      r
  }

  const Placeholder := "Select skills..."

  /**
   * `getSelectedOfferedSkillsText` / `getSelectedWantedSkillsText`: the placeholder for an
   * empty selection; the skill's name for one selected skill (the placeholder when it is not
   * listed); otherwise the count followed by " skills selected".
   */
  function SelectedText(selected: seq<SkillId>, approved: seq<SkillEntry>): (t: string)
    ensures |selected| == 0 ==> t == Placeholder
    ensures |selected| == 1 ==> t == if Find(approved, selected[0]).Some? then Find(approved, selected[0]).value.name else Placeholder
    ensures |selected| >= 2 ==>
      && EndsWith(t, " skills selected")
      && t[..|t| - 16] == NatToString(|selected|)
      && DigitsValue(t[..|t| - 16]) == |selected|
  {
    if |selected| == 0 then Placeholder
    else if |selected| == 1 then
      (var skill := Find(approved, selected[0]); if skill.Some? then skill.value.name else Placeholder)
    else NatToString(|selected|) + " skills selected"
  }

  /** A POST to `/api/user/skills/offered` or `/wanted`. */
  datatype AddRequest = AddRequest(skill: SkillId, description: string, proficiency: Option<string>)

  /** What an add click sends and the selection it leaves. */
  datatype AddOutcome = AddOutcome(requests: seq<AddRequest>, selection: seq<SkillId>)

  /**
   * `handleAddOffered` / `handleAddWanted`: nothing for an empty selection; otherwise one
   * request per selected id, in order (offered ones at "intermediate" proficiency), and the
   * selection is cleared when all of them succeed and kept when one fails.
   */
  function AddSelected(selected: seq<SkillId>, offered: bool, succeeded: bool): (o: AddOutcome)
    ensures |selected| == 0 ==> o == AddOutcome([], selected)
    ensures |selected| > 0 ==>
      && |o.requests| == |selected|
      && (forall i :: 0 <= i < |selected| ==> o.requests[i].skill == selected[i] && o.requests[i].description == "")
      && (forall i :: 0 <= i < |selected| ==> o.requests[i].proficiency == if offered then Some("intermediate") else None)
      && o.selection == if succeeded then [] else selected
  {
    if |selected| == 0 then AddOutcome([], selected)
    else
      AddOutcome(
        seq(|selected|, i requires 0 <= i < |selected| =>
          AddRequest(selected[i], "", if offered then Some("intermediate") else None)),
        if succeeded then [] else selected)
  }

  /** The new-skill form. */
  datatype NewSkill = NewSkill(name: string, category: string, description: string)

  /**
   * `handleSubmitNewSkill`: no request without a name or a category; otherwise the form is
   * sent as it is.
   */
  function SubmitNewSkill(form: NewSkill): (r: Option<NewSkill>)
    ensures r.Some? <==> form.name != "" && form.category != ""
    ensures r.Some? ==> r.value == form
  {
    if form.name == "" || form.category == "" then None else Some(form)
  }
}

=== FILE: swap_records.dfy ===
/**
 * One row of the `swap_requests` table and the pure rules of `PATCH /api/swaps/:id/progress`:
 * which columns a progress request writes, in which order, and what the row holds afterwards.
 */
module SwapRecords {
  import opened Common

  type UserId = int
  type SkillId = int
  /** An opaque `CURRENT_TIMESTAMP` value, supplied by the caller. */
  type Timestamp = int

  /** A `swap_requests` row. The completion flags hold the stored 1/0 as a boolean. */
  datatype SwapRow = SwapRow(
    requester: UserId,
    recipient: UserId,
    requesterSkill: SkillId,
    recipientSkill: SkillId,
    message: string,
    status: string,
    tracking: string,
    requesterNotes: Option<string>,
    recipientNotes: Option<string>,
    requesterCompleted: bool,
    recipientCompleted: bool,
    completedAt: Option<Timestamp>,
    updatedAt: Option<Timestamp>)

  /** The user is the requester or the recipient of the swap. */
  predicate IsParticipant(row: SwapRow, user: UserId) {
    user == row.requester || user == row.recipient
  }

  /**
   * The other party of a swap as both swap pages compute it: the recipient when I requested,
   * the requester otherwise. It is one of the two participants, and never me when they differ
   * and I am one of them.
   */
  function Counterpart(requester: UserId, recipient: UserId, me: UserId): (u: UserId)
    ensures u == requester || u == recipient
    ensures requester != recipient && (me == requester || me == recipient) ==> u != me
    ensures me == requester ==> u == recipient
    ensures me != requester ==> u == requester
  {
    if requester == me then recipient else requester
  }

  /**
   * The JSON body of a progress request.
   * `trackingStatus`: absent, or the string sent (`Some("")` is sent but falsy);
   * `notes`: absent, or the value sent, itself possibly `null`;
   * `completed`: absent, or the JavaScript truthiness of the value sent.
   */
  datatype ProgressBody = ProgressBody(
    trackingStatus: Option<string>,
    notes: Option<Option<string>>,
    completed: Option<bool>)

  /** The request carries a non-empty `tracking_status`. */
  predicate TrackingSupplied(body: ProgressBody) {
    body.trackingStatus.Some? && body.trackingStatus.value != ""
  }

  /** The request names no column at all. */
  predicate NamesNoColumn(body: ProgressBody) {
    !TrackingSupplied(body) && body.notes.None? && body.completed.None?
  }

  /** The completion flag of the participant other than `actor`, as stored before the request. */
  function OtherCompleted(row: SwapRow, actor: UserId): bool {
    if actor == row.requester then row.recipientCompleted else row.requesterCompleted
  }

  /** The two-party completion gate fires: the actor completes and the other party already had. */
  predicate GateFires(row: SwapRow, actor: UserId, body: ProgressBody) {
    body.completed == Some(true) && OtherCompleted(row, actor)
  }

  /** One `column = value` item of the SET clause of the UPDATE statement. */
  datatype Assignment =
    | SetTracking(tracking: string)
    | SetRequesterNotes(notes: Option<string>)
    | SetRecipientNotes(notes: Option<string>)
    | SetRequesterCompleted(flag: bool)
    | SetRecipientCompleted(flag: bool)
    | StampCompletedAt

  /** One assignment applied to a row. */
  function Assign(row: SwapRow, a: Assignment, now: Timestamp): SwapRow {
    match a
    case SetTracking(t) => row.(tracking := t)
    case SetRequesterNotes(n) => row.(requesterNotes := n)
    case SetRecipientNotes(n) => row.(recipientNotes := n)
    case SetRequesterCompleted(f) => row.(requesterCompleted := f)
    case SetRecipientCompleted(f) => row.(recipientCompleted := f)
    case StampCompletedAt => row.(completedAt := Some(now))
  }

  /**
   * A SET clause applied left to right. Assigning a column twice keeps the rightmost
   * value, which is what SQLite does with a repeated column in one UPDATE.
   */
  function ApplyAll(row: SwapRow, fields: seq<Assignment>, now: Timestamp): SwapRow
    decreases |fields|
  {
    if |fields| == 0 then row
    else ApplyAll(Assign(row, fields[0], now), fields[1..], now)
  }

  /** The UPDATE statement: the SET clause followed by `updated_at = CURRENT_TIMESTAMP`. */
  function RunUpdate(row: SwapRow, fields: seq<Assignment>, now: Timestamp): SwapRow {
    ApplyAll(row, fields, now).(updatedAt := Some(now))
  }

  /**
   * What a progress request by a participant leaves in the row, column by column:
   * notes and flag go to the actor's own role, `completed` is stored as a flag,
   * and the gate forces `tracking_status = 'completed'` and stamps `completed_at`.
   */
  function ProgressOutcome(row: SwapRow, actor: UserId, body: ProgressBody, now: Timestamp): SwapRow {
    var mine := actor == row.requester;
    var gate := GateFires(row, actor, body);
    row.(
      tracking :=
        if gate then "completed"
        else if TrackingSupplied(body) then body.trackingStatus.value
        else row.tracking,
      requesterNotes := if mine && body.notes.Some? then body.notes.value else row.requesterNotes,
      recipientNotes := if !mine && body.notes.Some? then body.notes.value else row.recipientNotes,
      requesterCompleted :=
        if mine && body.completed.Some? then body.completed.value else row.requesterCompleted,
      recipientCompleted :=
        if !mine && body.completed.Some? then body.completed.value else row.recipientCompleted,
      completedAt := if gate then Some(now) else row.completedAt,
      updatedAt := Some(now))
  }

  /** Applying `fields` and then one more assignment. */
  lemma {:induction false} ApplyAllSnoc(row: SwapRow, fields: seq<Assignment>, a: Assignment, now: Timestamp)
    ensures ApplyAll(row, fields + [a], now) == Assign(ApplyAll(row, fields, now), a, now)
    decreases |fields|
  {
    if |fields| > 0 {
      assert (fields + [a])[1..] == fields[1..] + [a];
      ApplyAllSnoc(Assign(row, fields[0], now), fields[1..], a, now);
    }
  }

  // The row after each push of the handler, in order.

  function AfterTracking(row: SwapRow, body: ProgressBody, now: Timestamp): SwapRow {
    if TrackingSupplied(body) then Assign(row, SetTracking(body.trackingStatus.value), now) else row
  }

  function AfterNotes(row: SwapRow, actor: UserId, body: ProgressBody, now: Timestamp): SwapRow {
    var r := AfterTracking(row, body, now);
    if body.notes.Some? then
      Assign(r, if actor == row.requester then SetRequesterNotes(body.notes.value)
                else SetRecipientNotes(body.notes.value), now)
    else r
  }

  function AfterCompleted(row: SwapRow, actor: UserId, body: ProgressBody, now: Timestamp): SwapRow {
    var r := AfterNotes(row, actor, body, now);
    if body.completed.Some? then
      Assign(r, if actor == row.requester then SetRequesterCompleted(body.completed.value)
                else SetRecipientCompleted(body.completed.value), now)
    else r
  }

  function AfterGate(row: SwapRow, actor: UserId, body: ProgressBody, now: Timestamp): SwapRow {
    var r := AfterCompleted(row, actor, body, now);
    if GateFires(row, actor, body) then Assign(Assign(r, SetTracking("completed"), now), StampCompletedAt, now)
    else r
  }

  /** The pushes of the handler, composed and followed by `updated_at`, give the declarative outcome. */
  lemma StepsGiveOutcome(row: SwapRow, actor: UserId, body: ProgressBody, now: Timestamp)
    ensures AfterGate(row, actor, body, now).(updatedAt := Some(now)) == ProgressOutcome(row, actor, body, now)
  {
    var r := AfterCompleted(row, actor, body, now);
    if actor == row.requester {
      assert r == row.(
        tracking := if TrackingSupplied(body) then body.trackingStatus.value else row.tracking,
        requesterNotes := if body.notes.Some? then body.notes.value else row.requesterNotes,
        requesterCompleted := if body.completed.Some? then body.completed.value else row.requesterCompleted);
    } else {
      assert r == row.(
        tracking := if TrackingSupplied(body) then body.trackingStatus.value else row.tracking,
        recipientNotes := if body.notes.Some? then body.notes.value else row.recipientNotes,
        recipientCompleted := if body.completed.Some? then body.completed.value else row.recipientCompleted);
    }
  }

  /**
   * Builds the SET clause of a progress request by successive pushes, exactly as the handler
   * does: caller-supplied tracking first, then the actor's notes, then the actor's flag, and,
   * when the gate fires, `tracking_status = 'completed'` and `completed_at` last.
   * Running the resulting UPDATE gives `ProgressOutcome`; an empty clause means the request
   * names no column.
   */
  method PlanProgress(row: SwapRow, actor: UserId, body: ProgressBody, now: Timestamp)
    returns (fields: seq<Assignment>)
    ensures |fields| == 0 <==> NamesNoColumn(body)
    ensures |fields| > 0 ==> RunUpdate(row, fields, now) == ProgressOutcome(row, actor, body, now)
    ensures GateFires(row, actor, body) ==>
      |fields| >= 2 && fields[|fields| - 2..] == [SetTracking("completed"), StampCompletedAt]
    ensures StampCompletedAt in fields ==> GateFires(row, actor, body)
  {
    var isRequester := row.requester == actor;
    fields := [];

    if TrackingSupplied(body) {
      var a := SetTracking(body.trackingStatus.value);
      ApplyAllSnoc(row, fields, a, now);
      fields := fields + [a];
    }
    assert ApplyAll(row, fields, now) == AfterTracking(row, body, now);

    if body.notes.Some? {
      var a := if isRequester then SetRequesterNotes(body.notes.value) else SetRecipientNotes(body.notes.value);
      ApplyAllSnoc(row, fields, a, now);
      fields := fields + [a];
    }
    assert ApplyAll(row, fields, now) == AfterNotes(row, actor, body, now);

    if body.completed.Some? {
      var a := if isRequester then SetRequesterCompleted(body.completed.value)
               else SetRecipientCompleted(body.completed.value);
      ApplyAllSnoc(row, fields, a, now);
      fields := fields + [a];
    }
    assert ApplyAll(row, fields, now) == AfterCompleted(row, actor, body, now);
    assert StampCompletedAt !in fields;
    assert |fields| == 0 <==> NamesNoColumn(body);

    if body.completed == Some(true) {
      // The handler re-reads both flags before running the UPDATE.
      var otherCompleted := if isRequester then row.recipientCompleted else row.requesterCompleted;
      if otherCompleted {
        ghost var before := fields;
        ApplyAllSnoc(row, fields, SetTracking("completed"), now);
        fields := fields + [SetTracking("completed")];
        ApplyAllSnoc(row, fields, StampCompletedAt, now);
        fields := fields + [StampCompletedAt];
        assert fields[|fields| - 2..] == [SetTracking("completed"), StampCompletedAt] by {
          assert fields == before + [SetTracking("completed"), StampCompletedAt];
        }
      }
    }
    assert ApplyAll(row, fields, now) == AfterGate(row, actor, body, now);
    StepsGiveOutcome(row, actor, body, now);
  }

  // ---------------------------------------------------------------------------
  // Properties of a progress request

  /**
   * Only the actor's own notes and flag can change; the other party's notes and flag,
   * the participants, the skills, the message and the negotiation status never do.
   */
  lemma ProgressTouchesOnlyOwnColumns(row: SwapRow, actor: UserId, body: ProgressBody, now: Timestamp)
    requires IsParticipant(row, actor)
    ensures var r := ProgressOutcome(row, actor, body, now);
      && r.requester == row.requester && r.recipient == row.recipient
      && r.requesterSkill == row.requesterSkill && r.recipientSkill == row.recipientSkill
      && r.message == row.message && r.status == row.status
      && (actor == row.requester ==>
            r.recipientNotes == row.recipientNotes && r.recipientCompleted == row.recipientCompleted)
      && (actor != row.requester ==>
            r.requesterNotes == row.requesterNotes && r.requesterCompleted == row.requesterCompleted)
  {
  }

  /**
   * The two-party gate: a request that completes and names no tracking status ends with
   * `tracking_status = 'completed'` exactly when both flags are now set (starting from a row
   * not yet completed).
   */
  lemma GateIffBothCompleted(row: SwapRow, actor: UserId, body: ProgressBody, now: Timestamp)
    requires IsParticipant(row, actor)
    requires body.completed == Some(true) && !TrackingSupplied(body)
    requires row.tracking != "completed"
    ensures var r := ProgressOutcome(row, actor, body, now);
      r.tracking == "completed" <==> r.requesterCompleted && r.recipientCompleted
  {
  }

  /** When the gate fires the row is completed and stamped, whatever tracking status was sent. */
  lemma GateOverridesSuppliedTracking(row: SwapRow, actor: UserId, body: ProgressBody, now: Timestamp)
    requires GateFires(row, actor, body)
    ensures ProgressOutcome(row, actor, body, now).tracking == "completed"
    ensures ProgressOutcome(row, actor, body, now).completedAt == Some(now)
  {
  }

  /** Without the gate, tracking changes only to a supplied non-empty value, and `completed_at` stays. */
  lemma TrackingChangesOnlyWhenSupplied(row: SwapRow, actor: UserId, body: ProgressBody, now: Timestamp)
    requires !GateFires(row, actor, body)
    ensures var r := ProgressOutcome(row, actor, body, now);
      && r.completedAt == row.completedAt
      && (r.tracking != row.tracking ==> TrackingSupplied(body) && r.tracking == body.trackingStatus.value)
  {
  }

  /**
   * The order in which the two parties confirm does not matter: starting with neither flag set,
   * requester-then-recipient and recipient-then-requester leave the same row, completed and
   * stamped by the second request.
   */
  lemma CompletionOrderIndependent(row: SwapRow, t1: Timestamp, t2: Timestamp)
    requires row.requester != row.recipient
    requires !row.requesterCompleted && !row.recipientCompleted
    ensures var done := ProgressBody(None, None, Some(true));
      var a := ProgressOutcome(ProgressOutcome(row, row.requester, done, t1), row.recipient, done, t2);
      var b := ProgressOutcome(ProgressOutcome(row, row.recipient, done, t1), row.requester, done, t2);
      a == b && a.tracking == "completed" && a.completedAt == Some(t2)
      && a.requesterCompleted && a.recipientCompleted
  {
  }

  /**
   * The gate re-stamps: a participant whose flag is already set and who sends `completed`
   * again after the other party overwrites `completed_at` with the new time.
   */
  lemma GateRestampsCompletedAt(row: SwapRow, t: Timestamp)
    requires row.requester != row.recipient
    requires row.requesterCompleted && row.recipientCompleted && row.completedAt.Some?
    requires row.completedAt != Some(t)
    ensures ProgressOutcome(row, row.requester, ProgressBody(None, None, Some(true)), t).completedAt
      != row.completedAt
  {
  }

  /**
   * A participant alone can complete the swap by sending `tracking_status = 'completed'`:
   * nothing checks the other party's flag in that case.
   */
  lemma SuppliedTrackingCompletesUnilaterally(row: SwapRow, now: Timestamp)
    requires row.requester != row.recipient
    requires !row.requesterCompleted && !row.recipientCompleted
    ensures var r := ProgressOutcome(row, row.requester, ProgressBody(Some("completed"), None, None), now);
      r.tracking == "completed" && !r.requesterCompleted && !r.recipientCompleted
      && r.completedAt == row.completedAt
  {
  }
}

=== FILE: swap_tracking.dfy ===
/**
 * The decision helpers of the swap tracking page: who the counterpart is, which skill each side
 * gives, when a swap may be rated or its progress updated, what the progress form starts with,
 * and the status badges. Rendering is not part of this model.
 */
module SwapTracking {
  import opened Common
  import opened SwapRecords

  /** A row of `GET /api/swaps` as the page receives it (the joined names included). */
  datatype SwapView = SwapView(
    id: int,
    requester: UserId,
    recipient: UserId,
    requesterName: string,
    requesterUsername: string,
    requesterPhoto: Option<string>,
    recipientName: string,
    recipientUsername: string,
    recipientPhoto: Option<string>,
    requesterSkillName: string,
    recipientSkillName: string,
    status: string,
    tracking: Option<string>,
    requesterNotes: Option<string>,
    recipientNotes: Option<string>,
    requesterCompleted: bool,
    recipientCompleted: bool,
    hasRated: bool)

  /** The profile shown for a participant. */
  datatype Person = Person(name: string, username: string, photo: Option<string>)

  function RequesterPerson(swap: SwapView): Person {
    Person(swap.requesterName, swap.requesterUsername, swap.requesterPhoto)
  }

  function RecipientPerson(swap: SwapView): Person {
    Person(swap.recipientName, swap.recipientUsername, swap.recipientPhoto)
  }

  /** The user a rating from `me` is about: the recipient when I requested, the requester otherwise. */
  function RatedUser(swap: SwapView, me: UserId): (u: UserId)
    ensures u == swap.requester || u == swap.recipient
    ensures swap.requester != swap.recipient && (me == swap.requester || me == swap.recipient) ==> u != me
  {
    Counterpart(swap.requester, swap.recipient, me)
  }

  /**
   * `getOtherUser`: the profile shown on the card, one of the two participants' profiles; when
   * they are two different people it is the profile of the user a rating is about.
   */
  function OtherUser(swap: SwapView, me: UserId): (p: Person)
    ensures p == RequesterPerson(swap) || p == RecipientPerson(swap)
    ensures swap.requester != swap.recipient ==> p == PersonOf(swap, RatedUser(swap, me))
  {
    if swap.requester == me then RecipientPerson(swap) else RequesterPerson(swap)
  }

  /** The profile of a participant, looked up by user id. */
  function PersonOf(swap: SwapView, u: UserId): Person {
    if u == swap.requester then RequesterPerson(swap) else RecipientPerson(swap)
  }

  /** The card shows exactly the user the rating form rates, and never me. */
  lemma ShownUserIsRatedUser(swap: SwapView, me: UserId)
    requires swap.requester != swap.recipient
    requires me == swap.requester || me == swap.recipient
    ensures OtherUser(swap, me) == PersonOf(swap, RatedUser(swap, me))
    ensures OtherUser(swap, me) != PersonOf(swap, me) || RequesterPerson(swap) == RecipientPerson(swap)
  {
  }

  /** Which way a skill goes in the exchange, from my side. */
  datatype Direction = Offering | Receiving

  datatype SkillSide = SkillSide(name: string, direction: Direction)

  /**
   * `getMySkill`: I offer when I requested the swap and receive otherwise, and an offered
   * skill is always the requester's.
   */
  function MySkill(swap: SwapView, me: UserId): (side: SkillSide)
    ensures side.direction == Offering <==> me == swap.requester
    ensures side.name == if side.direction == Offering then swap.requesterSkillName else swap.recipientSkillName
  {
    if swap.requester == me then SkillSide(swap.requesterSkillName, Offering)
    else SkillSide(swap.recipientSkillName, Receiving)
  }

  /** `getOtherSkill`: the counterpart offers exactly when I did not request the swap. */
  function OtherSkill(swap: SwapView, me: UserId): (side: SkillSide)
    ensures side.direction == Offering <==> me != swap.requester
    ensures side.name == if side.direction == Offering then swap.requesterSkillName else swap.recipientSkillName
  {
    if swap.requester == me then SkillSide(swap.recipientSkillName, Receiving)
    else SkillSide(swap.requesterSkillName, Offering)
  }

  /**
   * The two skill lines show the two different skills of the swap with opposite directions,
   * and the side marked "offering" always names the requester's skill.
   */
  lemma SkillSidesOpposite(swap: SwapView, me: UserId)
    ensures MySkill(swap, me).direction != OtherSkill(swap, me).direction
    ensures multiset{MySkill(swap, me).name, OtherSkill(swap, me).name}
         == multiset{swap.requesterSkillName, swap.recipientSkillName}
    ensures MySkill(swap, me).direction == Offering ==> MySkill(swap, me).name == swap.requesterSkillName
    ensures OtherSkill(swap, me).direction == Offering ==> OtherSkill(swap, me).name == swap.requesterSkillName
  {
  }

  /**
   * `canRate`: a completed, accepted swap that I have not rated. Such a swap no longer offers
   * "Update Progress".
   */
  predicate CanRate(swap: SwapView)
    ensures CanRate(swap) ==> swap.status == "accepted" && !ShowUpdateProgress(swap)
    ensures swap.hasRated ==> !CanRate(swap)
  {
    swap.tracking == Some("completed") && swap.status == "accepted" && !swap.hasRated
  }

  /**
   * The "Update Progress" button: only on accepted swaps, and on every accepted swap until
   * its tracking status is `completed`.
   */
  predicate ShowUpdateProgress(swap: SwapView)
    ensures ShowUpdateProgress(swap) ==> swap.status == "accepted"
    ensures swap.status == "accepted" ==> ShowUpdateProgress(swap) || swap.tracking == Some("completed")
  {
    swap.status == "accepted" && swap.tracking != Some("completed")
  }

  /**
   * The two actions never show together, and an accepted swap not yet rated always shows one
   * of them. A swap that is not accepted shows neither.
   */
  lemma ActionsExclusive(swap: SwapView)
    ensures !(CanRate(swap) && ShowUpdateProgress(swap))
    ensures swap.status == "accepted" && !swap.hasRated ==> CanRate(swap) || ShowUpdateProgress(swap)
    ensures swap.status != "accepted" ==> !CanRate(swap) && !ShowUpdateProgress(swap)
  {
  }

  /** The values the progress form opens with. */
  datatype ProgressForm = ProgressForm(tracking: string, notes: string, completed: bool)

  /**
   * `openProgressModal`: the stored tracking status, or `in_progress` when it is empty; my own
   * notes (or "") and my own completion flag.
   */
  function OpenProgressForm(swap: SwapView, me: UserId): (f: ProgressForm)
    ensures f.tracking != ""
    ensures swap.tracking.Some? && swap.tracking.value != "" ==> f.tracking == swap.tracking.value
    ensures (swap.tracking.None? || swap.tracking == Some("")) ==> f.tracking == "in_progress"
    ensures var mine := if me == swap.requester then swap.requesterNotes else swap.recipientNotes;
      f.notes == if mine.Some? then mine.value else ""
    ensures f.completed == if me == swap.requester then swap.requesterCompleted else swap.recipientCompleted
  {
    ProgressForm(
      if swap.tracking.Some? && swap.tracking.value != "" then swap.tracking.value else "in_progress",
      if swap.requester == me then
        (if swap.requesterNotes.Some? then swap.requesterNotes.value else "")
      else
        (if swap.recipientNotes.Some? then swap.recipientNotes.value else ""),
      if swap.requester == me then swap.requesterCompleted else swap.recipientCompleted)
  }

  /**
   * The body `handleProgressUpdate` sends: every field of the form, so it always names a
   * column, and it supplies a tracking status exactly when the form's is non-empty.
   */
  function FormBody(f: ProgressForm): (b: ProgressBody)
    ensures !NamesNoColumn(b)
    ensures TrackingSupplied(b) <==> f.tracking != ""
    ensures b.notes == Some(Some(f.notes)) && b.completed == Some(f.completed)
  {
    ProgressBody(Some(f.tracking), Some(Some(f.notes)), Some(f.completed))
  }

  /**
   * A form opened on a swap never produces the malformed empty UPDATE, and since it always
   * sends a tracking status, choosing "completed" in it completes the swap without the other
   * party's flag.
   */
  lemma FormAlwaysSendsTracking(swap: SwapView, me: UserId, row: SwapRow, now: Timestamp)
    requires row.requester != row.recipient && me == row.requester
    requires !row.recipientCompleted
    ensures !NamesNoColumn(FormBody(OpenProgressForm(swap, me)))
    ensures var f := OpenProgressForm(swap, me).(tracking := "completed");
      ProgressOutcome(row, me, FormBody(f), now).tracking == "completed"
  {
  }

  /** A badge: its CSS class and its text. */
  datatype Badge = Badge(cls: string, text: string)

  /** `getStatusBadge`: the four known statuses, and `badge-pending` with the raw text otherwise. */
  function StatusBadge(status: string): (b: Badge)
    ensures b.cls == "badge-pending" <==> status !in {"accepted", "rejected", "cancelled"}
    ensures status !in {"pending", "accepted", "rejected", "cancelled"} ==> b == Badge("badge-pending", status)
    ensures status in {"pending", "accepted", "rejected", "cancelled"} ==> b.text != status
  {
    if status == "pending" then Badge("badge-pending", "Pending")
    else if status == "accepted" then Badge("badge-accepted", "Accepted")
    else if status == "rejected" then Badge("badge-rejected", "Rejected")
    else if status == "cancelled" then Badge("badge-cancelled", "Cancelled")
    else Badge("badge-pending", status)
  }

  /**
   * `getTrackingBadge`: the five known tracking values, and `badge-pending` with the raw text
   * otherwise (a null value shows no text).
   */
  function TrackingBadge(tracking: Option<string>): (b: Badge)
    ensures b.cls == "badge-pending" <==>
      tracking.None? || tracking.value !in {"in_progress", "completed", "half_completed", "not_completed"}
    ensures tracking.None? ==> b == Badge("badge-pending", "")
    ensures tracking.Some? && tracking.value !in {"pending", "in_progress", "completed", "half_completed", "not_completed"}
      ==> b == Badge("badge-pending", tracking.value)
  {
    match tracking
    case None => Badge("badge-pending", "")
    case Some(t) =>
      if t == "pending" then Badge("badge-pending", "Pending")
      else if t == "in_progress" then Badge("badge-progress", "In Progress")
      else if t == "completed" then Badge("badge-completed", "Completed")
      else if t == "half_completed" then Badge("badge-half", "Half Completed")
      else if t == "not_completed" then Badge("badge-not-completed", "Not Completed")
      else Badge("badge-pending", t)
  }
}

=== FILE: swaps_page.dfy ===
/**
 * The decision helpers of the swap requests page: the counterpart, the ratings attached to a
 * swap and whether I have rated, who may accept, reject or rate, the skill names shown, and
 * the five-per-page pagination.
 */
module SwapsPage {
  import opened Common
  import opened SwapRecords
  import Pagination
  import SwapTracking
  import Server

  const RequestsPerPage: nat := 5

  /** A row of `GET /api/users/:id/ratings` (the `ratings` columns that matter here). */
  datatype RatingView = RatingView(swap: int, rater: UserId, ratedUser: UserId, score: int)

  /** A swap of `GET /api/swaps` with the fields this page reads. */
  datatype SwapEntry = SwapEntry(
    id: int,
    requester: UserId,
    recipient: UserId,
    requesterSkill: SkillId,
    recipientSkill: SkillId,
    status: string)

  /** `otherUserId`: the recipient when I requested, the requester otherwise. */
  function OtherUserId(swap: SwapEntry, me: UserId): (u: UserId)
    ensures u == swap.requester || u == swap.recipient
    ensures swap.requester != swap.recipient && (me == swap.requester || me == swap.recipient) ==> u != me
  {
    Counterpart(swap.requester, swap.recipient, me)
  }

  /** `ratingsRes.data.filter(r => r.swap_id === swap.id)`. */
  function RatingsForSwap(received: seq<RatingView>, swapId: int): (rs: seq<RatingView>)
    ensures forall r :: r in rs <==> r in received && r.swap == swapId
  {
    Filter(received, (r: RatingView) => r.swap == swapId)
  }

  /** `ratings.some(r => r.rater_id === me)`. */
  function AnyRatedBy(ratings: seq<RatingView>, me: UserId): (b: bool)
    ensures b <==> exists i :: 0 <= i < |ratings| && ratings[i].rater == me
  {
    if |ratings| == 0 then false
    else ratings[0].rater == me || AnyRatedBy(ratings[1..], me)
  }

  /** `hasRated`: some rating of the swap's list is mine; false when the swap carries no list. */
  function HasRated(ratings: Option<seq<RatingView>>, me: UserId): (b: bool)
    ensures b <==> ratings.Some? && exists r :: r in ratings.value && r.rater == me
  {
    ratings.Some? && AnyRatedBy(ratings.value, me)
  }

  /**
   * The ratings list of a swap is the counterpart's received ratings for that swap, so
   * `hasRated` holds exactly when I have rated the counterpart for this swap.
   */
  lemma HasRatedIffRatedCounterpart(table: seq<RatingView>, swap: SwapEntry, me: UserId)
    ensures var received := Filter(table, (r: RatingView) => r.ratedUser == OtherUserId(swap, me));
      HasRated(Some(RatingsForSwap(received, swap.id)), me)
      <==> exists r :: r in table && r.swap == swap.id && r.rater == me && r.ratedUser == OtherUserId(swap, me)
  {
    var received := Filter(table, (r: RatingView) => r.ratedUser == OtherUserId(swap, me));
    var rs := RatingsForSwap(received, swap.id);
    forall r
      ensures r in rs <==> r in table && r.swap == swap.id && r.ratedUser == OtherUserId(swap, me)
    {
      assert r in rs <==> r in received && r.swap == swap.id;
    }
  }

  /** `isRecipient`. */
  predicate IsRecipient(swap: SwapEntry, me: UserId) {
    swap.recipient == me
  }

  /**
   * `canRate`: an accepted swap I have not rated and of which I am not the recipient. Between
   * two participants, only the requester rates, and the rating is about the recipient.
   */
  predicate CanRate(swap: SwapEntry, me: UserId, hasRated: bool)
    ensures CanRate(swap, me, hasRated) ==> swap.status == "accepted" && !hasRated
    ensures CanRate(swap, me, hasRated) && (me == swap.requester || me == swap.recipient) ==>
      me == swap.requester && OtherUserId(swap, me) == swap.recipient
  {
    swap.status == "accepted" && !hasRated && !IsRecipient(swap, me)
  }

  /** Accept and Reject are offered to the recipient of a pending swap, which cannot be rated. */
  predicate ShowAcceptReject(swap: SwapEntry, me: UserId)
    ensures ShowAcceptReject(swap, me) ==> swap.status == "pending" && swap.recipient == me
    ensures ShowAcceptReject(swap, me) ==> forall h :: !CanRate(swap, me, h)
  {
    IsRecipient(swap, me) && swap.status == "pending"
  }

  /**
   * A card offers at most one kind of action; a recipient is never offered the Rate button on
   * this page, and a requester is never offered Accept or Reject.
   */
  lemma ActionsOnCard(swap: SwapEntry, me: UserId, hasRated: bool)
    ensures !(CanRate(swap, me, hasRated) && ShowAcceptReject(swap, me))
    ensures IsRecipient(swap, me) ==> !CanRate(swap, me, hasRated)
    ensures !IsRecipient(swap, me) ==> !ShowAcceptReject(swap, me)
  {
  }

  /** An approved skill as `GET /api/skills` lists it. */
  datatype SkillEntry = SkillEntry(id: SkillId, name: string)

  /** `skills.find(s => s.id === id)?.name || ""`: the first listed name for the id, or "". */
  function SkillName(approved: seq<SkillEntry>, id: SkillId): (name: string)
    ensures name != "" ==> exists i :: 0 <= i < |approved| && approved[i] == SkillEntry(id, name)
    ensures (forall i :: 0 <= i < |approved| ==> approved[i].id != id) ==> name == ""
    ensures forall k :: 0 <= k < |approved| && approved[k].id == id && (forall j :: 0 <= j < k ==> approved[j].id != id) ==>
      name == approved[k].name
  {
    if |approved| == 0 then ""
    else if approved[0].id == id then approved[0].name
    else
      var rest := SkillName(approved[1..], id);
      assert forall k :: 1 <= k < |approved| ==> approved[k] == approved[1..][k - 1];
      rest
  }

  /**
   * The "Your Skill" line: the recipient's skill for the recipient, the requester's otherwise;
   * for a participant of a swap between two people, the skill of their own role.
   */
  function YourSkill(swap: SwapEntry, me: UserId, approved: seq<SkillEntry>): (name: string)
    ensures swap.requester != swap.recipient && (me == swap.requester || me == swap.recipient) ==>
      name == SkillName(approved, if me == swap.requester then swap.requesterSkill else swap.recipientSkill)
  {
    if IsRecipient(swap, me) then SkillName(approved, swap.recipientSkill) else SkillName(approved, swap.requesterSkill)
  }

  /** The "Their Skill" line: together with "Your Skill" it names both skills of the swap. */
  function TheirSkill(swap: SwapEntry, me: UserId, approved: seq<SkillEntry>): (name: string)
    ensures multiset{YourSkill(swap, me, approved), name}
         == multiset{SkillName(approved, swap.requesterSkill), SkillName(approved, swap.recipientSkill)}
  {
    if IsRecipient(swap, me) then SkillName(approved, swap.requesterSkill) else SkillName(approved, swap.recipientSkill)
  }

  /**
   * This page and the tracking page show the same skill as mine when the two participants are
   * different people and both pages see the same skill names.
   */
  lemma PagesAgreeOnMySkill(swap: SwapEntry, view: SwapTracking.SwapView, me: UserId, approved: seq<SkillEntry>)
    requires swap.requester != swap.recipient && (me == swap.requester || me == swap.recipient)
    requires view.requester == swap.requester && view.recipient == swap.recipient
    requires view.requesterSkillName == SkillName(approved, swap.requesterSkill)
    requires view.recipientSkillName == SkillName(approved, swap.recipientSkill)
    ensures SwapTracking.MySkill(view, me).name == YourSkill(swap, me, approved)
    ensures SwapTracking.OtherSkill(view, me).name == TheirSkill(swap, me, approved)
  {
  }

  // ---------------------------------------------------------------------------
  // The user a rating is about

  /** Whether `GET /api/users/:id` answers with a profile: the user is public and not banned. */
  datatype Visibility = Visibility(isPublic: bool, isBanned: bool)

  /**
   * As written: `rated_user_id` is the id of the fetched counterpart profile. When that fetch
   * fails (a private or banned counterpart) the fallback profile has no id, and the rating is
   * posted without `rated_user_id`.
   */
  function PostedRatedUser(users: map<UserId, Visibility>, swap: SwapEntry, me: UserId): (u: Option<UserId>)
    ensures u.Some? ==> u.value == OtherUserId(swap, me)
    ensures u.None? <==> !(OtherUserId(swap, me) in users
                           && users[OtherUserId(swap, me)].isPublic && !users[OtherUserId(swap, me)].isBanned)
  {
    var other := OtherUserId(swap, me);
    if other in users && users[other].isPublic && !users[other].isBanned then Some(other) else None
  }

  /** A requester rating a private recipient posts no rated user. */
  lemma PrivateCounterpartUnrated()
    ensures var swap := SwapEntry(1, 10, 20, 100, 200, "accepted");
      && CanRate(swap, 10, false)
      && PostedRatedUser(map[10 := Visibility(true, false), 20 := Visibility(false, false)], swap, 10) == None
  {
  }

  /**
   * Corrected: the rated user is the counterpart id the page already computes: the recipient
   * when I requested the swap, the requester otherwise, whether or not their profile is visible.
   */
  function RatedUser(swap: SwapEntry, me: UserId): (u: UserId)
    ensures me == swap.requester ==> u == swap.recipient
    ensures me != swap.requester ==> u == swap.requester
  {
    OtherUserId(swap, me)
  }

  /**
   * The corrected choice never depends on the counterpart's visibility, agrees with the
   * as-written one whenever that one posts a user, and agrees with the tracking page's choice.
   */
  lemma RatedUserIsCounterpart(users: map<UserId, Visibility>, swap: SwapEntry, view: SwapTracking.SwapView, me: UserId)
    requires view.requester == swap.requester && view.recipient == swap.recipient
    ensures PostedRatedUser(users, swap, me).Some? ==> PostedRatedUser(users, swap, me).value == RatedUser(swap, me)
    ensures RatedUser(swap, me) == SwapTracking.RatedUser(view, me)
    ensures swap.requester != swap.recipient && (me == swap.requester || me == swap.recipient) ==> RatedUser(swap, me) != me
  {
  }

  /**
   * As written, a rating posted for a hidden counterpart is stored without a rated user, so it
   * is in no user's list of received ratings, the counterpart's included. With the corrected
   * choice the rating is in the counterpart's list.
   */
  lemma HiddenCounterpartRatingUnlisted(users: map<UserId, Visibility>, swap: SwapEntry, me: UserId,
                                        accounts: map<UserId, Server.User>, ratings: map<Server.RowId, Server.Rating>,
                                        k: Server.RowId, score: int, feedback: string)
    requires k in ratings
    requires ratings[k] == Server.Rating(swap.id, me, PostedRatedUser(users, swap, me), score, feedback)
    requires PostedRatedUser(users, swap, me).None?
    ensures ratings[k].ratedUser.None?
    ensures forall u :: k !in Server.ReceivedRatings(ratings, accounts, u)
  {
  }

  /** With the corrected choice, the stored rating is listed among the counterpart's received ratings. */
  lemma CorrectedRatingListed(swap: SwapEntry, me: UserId,
                              accounts: map<UserId, Server.User>, ratings: map<Server.RowId, Server.Rating>,
                              k: Server.RowId, score: int, feedback: string)
    requires k in ratings && me in accounts
    requires ratings[k] == Server.Rating(swap.id, me, Some(RatedUser(swap, me)), score, feedback)
    ensures k in Server.ReceivedRatings(ratings, accounts, OtherUserId(swap, me))
  {
  }

  // ---------------------------------------------------------------------------
  // Pagination

  /** The swaps shown on page `p`: at most five of the listed swaps. */
  function SwapsOnPage(swaps: seq<SwapEntry>, p: int): (page: seq<SwapEntry>)
    ensures |page| <= 5
    ensures forall s :: s in page ==> s in swaps
  {
    Pagination.Page(swaps, p, RequestsPerPage)
  }

  /**
   * Every page shows at most five swaps, pages past `ceil(n / 5)` are empty, and the pages
   * together show every swap once, in order.
   */
  lemma SwapsPagination(swaps: seq<SwapEntry>, p: int)
    requires p >= 1
    ensures |SwapsOnPage(swaps, p)| <= 5
    ensures p > Pagination.TotalPages(|swaps|, RequestsPerPage) ==> SwapsOnPage(swaps, p) == []
    ensures Pagination.Pages(swaps, Pagination.TotalPages(|swaps|, RequestsPerPage), RequestsPerPage) == swaps
  {
    Pagination.PageContents(swaps, p, RequestsPerPage);
    Pagination.PagesCoverAll(swaps, RequestsPerPage);
  }
}

=== FILE: user_list.dfy ===
/**
 * The user directory page: the query string of the search request, the users shown (never
 * myself, never an admin) and the six-per-page pagination.
 */
module UserList {
  import opened Common
  import opened SwapRecords
  import Pagination

  const UsersPerPage: nat := 6

  /** A user of `GET /api/users` with the fields this page decides on. */
  datatype UserCard = UserCard(id: UserId, username: string, isAdmin: bool)

  /**
   * `filteredUsers`: the listed users without the logged-in user (when there is one) and
   * without any admin, each as often as listed, in their order (`FilteredUsersKeepOrder`).
   */
  function FilteredUsers(users: seq<UserCard>, current: Option<UserId>): (r: seq<UserCard>)
    ensures forall u :: u in r <==> u in users && !u.isAdmin && (current.None? || u.id != current.value)
    ensures forall u ::
      multiset(r)[u] == if !u.isAdmin && (current.None? || u.id != current.value) then multiset(users)[u] else 0
    ensures |r| <= |users|
  {
    Filter(users, (u: UserCard) => (current.None? || u.id != current.value) && !u.isAdmin)
  }

  /**
   * Filtering keeps the listing order: the users of a first part of the list are shown before
   * those of the rest.
   */
  lemma FilteredUsersKeepOrder(a: seq<UserCard>, b: seq<UserCard>, current: Option<UserId>)
    ensures FilteredUsers(a + b, current) == FilteredUsers(a, current) + FilteredUsers(b, current)
  {
    FilterConcat(a, b, (u: UserCard) => (current.None? || u.id != current.value) && !u.isAdmin);
  }

  /** The users shown on page `p`: at most six listed users, none of them me or an admin. */
  function UsersOnPage(users: seq<UserCard>, current: Option<UserId>, p: int): (page: seq<UserCard>)
    ensures |page| <= 6
    ensures forall u :: u in page ==> u in users && !u.isAdmin && (current.None? || u.id != current.value)
  {
    Pagination.Page(FilteredUsers(users, current), p, UsersPerPage)
  }

  /**
   * A page holds at most six users, none of them me or an admin, and the pages together show
   * every filtered user once, in order.
   */
  lemma UsersPagination(users: seq<UserCard>, current: Option<UserId>, p: int)
    requires p >= 1
    ensures |UsersOnPage(users, current, p)| <= 6
    ensures forall u :: u in UsersOnPage(users, current, p) ==>
      !u.isAdmin && (current.None? || u.id != current.value)
    ensures var shown := FilteredUsers(users, current);
      Pagination.Pages(shown, Pagination.TotalPages(|shown|, UsersPerPage), UsersPerPage) == shown
  {
    var shown := FilteredUsers(users, current);
    Pagination.PageContents(shown, p, UsersPerPage);
    forall u | u in UsersOnPage(users, current, p)
      ensures u in shown
    {
      var k :| 0 <= k < |UsersOnPage(users, current, p)| && UsersOnPage(users, current, p)[k] == u;
      assert u == shown[(p - 1) * UsersPerPage + k];
    }
    Pagination.PagesCoverAll(shown, UsersPerPage);
  }

  /** The `key=value` parts of the search request, skill first. */
  function QueryParts(skill: string, availability: string, encode: string -> string): (parts: seq<string>)
    ensures |parts| <= 2
    ensures |parts| == 0 <==> skill == "" && (availability == "" || availability == "Any")
  {
    (if skill != "" then ["skill=" + encode(skill)] else [])
      + (if availability != "" && availability != "Any" then ["availability=" + encode(availability)] else [])
  }

  /**
   * `fetchUsers`: the query string built by conditional pushes. It is empty when there is no
   * skill and the availability is "Any" (or empty); otherwise "?" and the parts joined by "&".
   * `encode` stands for `encodeURIComponent`.
   */
  method QueryString(skill: string, availability: string, encode: string -> string) returns (q: string)
    ensures q == "" <==> skill == "" && (availability == "" || availability == "Any")
    ensures q != "" ==> q == "?" + Join(QueryParts(skill, availability, encode), "&")
  {
    var query: seq<string> := [];
    if skill != "" {
      query := query + ["skill=" + encode(skill)];
    }
    if availability != "" && availability != "Any" {
      query := query + ["availability=" + encode(availability)];
    }
    assert query == QueryParts(skill, availability, encode);
    if |query| > 0 {
      q := "?" + Join(query, "&");
    } else {
      q := "";
    }
  }

  /**
   * Reading the query back: when the encoder never emits "&" (as `encodeURIComponent` does
   * not), splitting after the "?" on "&" gives the parts, the skill part first.
   */
  lemma QueryRoundTrip(skill: string, availability: string, encode: string -> string)
    requires forall s :: '&' !in encode(s)
    requires |QueryParts(skill, availability, encode)| > 0
    ensures Split(Join(QueryParts(skill, availability, encode), "&"), '&') == QueryParts(skill, availability, encode)
    ensures skill != "" ==> Split(Join(QueryParts(skill, availability, encode), "&"), '&')[0] == "skill=" + encode(skill)
  {
    var parts := QueryParts(skill, availability, encode);
    forall i | 0 <= i < |parts|
      ensures '&' !in parts[i]
    {
      assert '&' !in encode(skill) && '&' !in encode(availability);
      assert '&' !in "skill=" && '&' !in "availability=";
    }
    SplitJoin(parts, '&');
  }
}
